=== FILE: README.md ===
# Admin shuffle: the rotation core in Dafny

The `Shuffle` cog keeps one configuration record per community. Each record
says whether swapping is on, which role is the admin role, which roles are
ignored, how many admins to keep, how many hours a term lasts, when the next
swap is due and whether the admins were warned. An update loop visits the
enabled records. It reminds the admins when at most an hour is left and swaps
the admins when the time has passed. A swap:

1. resets every non-exempt role to the standard permissions;
2. dismisses the current admins;
3. counts how many admins the settings ask for;
4. draws that many distinct new admins at random from the candidates;
5. moves the schedule on.

Owner commands edit the record.

This project models that core, in two versions of the cog:

- `src/shuffle.py`, the current version;
- `Shuffle.py`, the legacy version.

One engine takes the version as a parameter (`Policy.Variant`). Each point
where the two versions differ is one predicate of that parameter:

- whether a dismissed admin may be drawn again;
- whether `swapTime` counts hours or days;
- whether failing direct messages are caught;
- whether a reload clears the cache first;
- whether the `swap` command is awaited.

There is also a difference in the cache key: `ConfigStore.CacheKey` is the
community's id in the current version and its name in the legacy one.

The modules follow the structure of the cog:

- `Outcomes`: `Option`, `Result` and one `Failure` per modelled exception the
  code can raise; a stored field that does not parse is not one of them (see
  "Left out"). The code raises exceptions and keeps whatever side effects came
  before them. So every stepping function returns the state it reached together
  with an optional failure.
- `Platform`: members (an id, a set of role ids, a bot flag), roles (an id, a
  set of permissions), communities, and the standard permission set.
- `Settings`: the record, its fields and typed single-field updates
  (`config[key] = value`).
- `ConfigStore`: the in-memory cache and the record files (a map from file name
  to parsed record). It provides `getConfig`, `setConfigValue`, `initConfig`
  and `_loadConfigs`.
- `Sampling`: `random.sample`, written as a function of the draws it consumes.
  It is proved sound and complete against "any sub-multiset of the right size".
- `Rotation`: the admin count, the permission reset, the member loop, the grant
  loop, `warnAdmins` and `swapAdmins`.
- `Scheduler`: one pass of `_updateLoop`, with its warn and swap predicates. The
  pass is written over an arbitrary visit function. Its properties are proved
  once for every visit that obeys `Scheduler.VisitLaw`, and then instantiated
  with the real visit of the current version.
- `Commands`: `toggle`, `setmin`/`setmax`/`setratio`, `setadmin`/`settime`,
  `ignore`/`unignore` and `swap`.
- `Scenarios`: worked cases that show where the versions part ways.

The outside world is made up of parameters. The clock is an integer `now`. The
random draws are a sequence of naturals per community. The members whose direct
messages fail are a set. The default record is an `Option<Config>`, which is
`None` when the file is missing. The directory listing is a sequence of file
names.

## Model

| member | source | states |
|---|---|---|
| Settings.Apply | src/shuffle.py:156-160 | after `config[key] = value` the record reads the new value under that key and the old value under every other key |
| Settings.UpdatesOfDistinctKeysCommute | src/shuffle.py:156-160 | two writes to different keys give the same record in either order |
| Settings.LaterUpdateWins | src/shuffle.py:156-160 | of two writes to the same key only the later one shows |
| Settings.ApplyCurrentValueIsIdentity | src/shuffle.py:159 | writing the value a key already holds leaves the record unchanged |
| ConfigStore.InitConfig | src/shuffle.py:166-174 | a new record exists exactly when the default record does; it is the default with `id` injected, it is cached under the id, and it is written to `<id>.json` |
| ConfigStore.GetConfig | src/shuffle.py:140-154 | a cached record is returned and nothing changes; else the file's record is returned and not cached; a malformed file raises; else the record is created from the default; no other cache entry or file changes |
| ConfigStore.GetConfigIdempotent | src/shuffle.py:140-154 | a second lookup returns the same record and changes nothing more |
| ConfigStore.SetConfigValue | src/shuffle.py:156-163 | fails exactly when the lookup fails; otherwise the cache entry and the file both hold the fetched record with only the given key changed, and nothing else is written |
| ConfigStore.SetThenGet | src/shuffle.py:140-163 | in both versions, the next lookup of the community returns the edited record |
| ConfigStore.GetConfigKeepsKeying | src/shuffle.py:140-154 | in a store whose keys match their records' ids, the record handed out for `id` carries `id`, and the store stays that way |
| ConfigStore.CurrentSetKeepsKeying | src/shuffle.py:156-163 | a current-version edit keeps every cache key equal to its record's id |
| ConfigStore.LegacySetBreaksKeying | Shuffle.py:138-143 | a legacy edit of community "1" named "Guild" creates a cache entry "Guild" whose record has id "1" |
| ConfigStore.LoadInto | src/shuffle.py:30-35 | loading keeps every key already cached, and finishes exactly when every listed ".json" file parses |
| ConfigStore.LoadConfigs | src/shuffle.py:27-37 | a reload leaves the files alone; the legacy reload keeps every old key, though not every old record (an entry may be replaced by a listed record with that id; see `LoadedEntriesComeFromFiles`); it fails exactly when some ".json" file does not parse |
| ConfigStore.LoadedEntriesComeFromFiles | src/shuffle.py:31-35 | every entry after a load was cached before, or is a listed ".json" record stored under its own id |
| ConfigStore.LoadCachesEveryRecord | src/shuffle.py:31-35 | after a load that finishes, the id of every listed ".json" record is a cache key |
| ConfigStore.CurrentLoadDiscardsCache | src/shuffle.py:27-35 | a current-version reload starts from an empty cache: every entry afterwards is a listed `.json` record, cached under its own id, whatever was cached before |
| ConfigStore.CurrentLoadKeepsKeying | src/shuffle.py:27-35 | a current-version reload of files named after their ids leaves every cache key equal to its record's id, whatever the old cache held |
| Sampling.DrawIsSample | src/shuffle.py:109 | whatever the draws, `random.sample(pool, k)` yields k elements taken from the pool without replacement |
| Sampling.DrawComplete | src/shuffle.py:109 | every sequence of k pool elements taken without replacement is produced by some sequence of draws |
| Sampling.SampleOfDistinctIsDistinct | src/shuffle.py:109 | a sample of a pool without repeats has no repeats and only pool elements |
| Rotation.TruncDiv | src/shuffle.py:126 | `int(n / d)` is the quotient truncated toward zero, for both signs of `d` |
| Rotation.Clamp | src/shuffle.py:126 | `min(hi, max(lo, x))` is at most `hi`, at least `lo` when `lo <= hi`, equals `x` inside the bounds and the nearer bound outside |
| Rotation.AdminCount | src/shuffle.py:124-126 | raises when the id is not cached or the ratio is zero; otherwise the clamp of the member count over the ratio: at most `maxAdmins`, at least `minAdmins` when `minAdmins <= maxAdmins`, and below `minAdmins` it is `minAdmins`, or `maxAdmins` when that is smaller |
| Rotation.AdminCountCountsEveryMember | src/shuffle.py:126 | the count depends only on how many members there are, bots and ignored members included |
| Rotation.StripRoles | src/shuffle.py:129-138 | ignored roles and the admin role are unchanged, every other role ends with the standard permissions, and exactly the roles not already standard are edited |
| Rotation.StripRolesIdempotent | src/shuffle.py:134-138 | a second reset edits nothing and changes nothing |
| Rotation.Sweep | src/shuffle.py:91-106 | exempt members are untouched; after a completed loop every non-exempt admin is demoted; the pool is exactly the candidates, in member order |
| Rotation.SweepNotifiesOnlyDismissed | src/shuffle.py:96-104 | dismissal messages go only to members the loop dismisses |
| Rotation.SweepNotifiesEveryDismissed | src/shuffle.py:96-104 | when the member loop completes, every dismissed member whose message goes through has been sent a dismissal message |
| Rotation.SweepFailure | Shuffle.py:83-93 | the member loop raises exactly when the legacy version dismisses an admin whose message fails |
| Rotation.PoolSize | src/shuffle.py:91-106 | the pool has one entry per candidate |
| Rotation.Grant | src/shuffle.py:110-116 | the chosen members gain the admin role and nobody else changes; a missing admin role raises at the first grant; the current version never fails on a message |
| Rotation.GrantNotifiesOnlyChosen | src/shuffle.py:110-116 | selection messages go only to the chosen members |
| Rotation.GrantNotifiesEveryChosen | src/shuffle.py:110-116 | when the grant loop completes, every chosen member whose message goes through has been sent a selection message with the term in hours |
| Rotation.Remind | src/shuffle.py:73-79 | every admin-role holder whose message goes through is reminded; only the legacy version raises, exactly when some holder's message fails |
| Rotation.RemindNotifiesOnlyHolders | src/shuffle.py:74-79 | reminders go only to holders of the admin role |
| Rotation.Warn | src/shuffle.py:70-80 | a warn that finishes leaves the record with `warned` set, both under the version's cache key and as read back by id; a failed lookup raises and changes nothing; after a successful lookup it fails exactly when the legacy version hits a failing message, and then keeps only what the lookup wrote |
| Rotation.Reschedule | src/shuffle.py:117-121 | the record reads back with `nextSwap = now + swapTime * unit` and `warned` cleared, where the unit is 3600 (current) or 86400 (legacy) |
| Rotation.Appoint | src/shuffle.py:107-121 | a count outside the pool raises before any grant; the chosen members are distinct pool members, and after a completed swap there are `adminCount` of them |
| Rotation.Swap | src/shuffle.py:82-121 | roles are reset as `stripRoles` says, exempt members are untouched, a failure writes nothing after the lookup, a completed swap reschedules, and only the community's own record and file are written |
| Rotation.SwapCompletes | src/shuffle.py:82-121 | after a completed swap the new admins are exactly `adminCount` distinct candidates, and a non-exempt member holds the admin role exactly when newly chosen |
| Rotation.HoldsExactlyChosen | src/shuffle.py:96-111 | after the dismissal loop and the grant loop, a non-exempt member holds the admin role exactly when chosen |
| Rotation.CurrentNeverReselects | src/shuffle.py:98-106 | in the current version a dismissed admin is never among the new admins of the same swap |
| Rotation.SwapOverdrawn | src/shuffle.py:107-109 | unless a legacy dismissal message fails first, a count that is negative or larger than the pool raises with nobody granted and the schedule unchanged |
| Scheduler.EnabledKeys | src/shuffle.py:50-55 | the pass visits exactly the enabled records, each once, in the order in which the cache lists them |
| Scheduler.WarnStep | src/shuffle.py:57-60 | no warn unless `nextSwap - now <= 3600` and not warned; an unknown community raises; in the current version the record ends warned exactly when a warn ran |
| Scheduler.SwapStep | src/shuffle.py:61-64 | no swap unless `now > nextSwap`; an unknown community raises; in the current version a completed swap reschedules the record and a failed one leaves it |
| Scheduler.Visit | src/shuffle.py:56-64 | warn then swap, both possibly in one visit; in the current version the record ends where `Expected` puts it, or on failure with at most the warning recorded |
| Scheduler.CurrentVisitLawful | src/shuffle.py:56-64 | the current version's visit writes only its own record, file and community, and obeys `VisitLaw` |
| Scheduler.PassFrame | src/shuffle.py:56-67 | a pass leaves every record and community it does not visit alone |
| Scheduler.PassCompletes | src/shuffle.py:56-64 | a pass that completes leaves every visited record where `Expected` puts it |
| Scheduler.PassStops | src/shuffle.py:49-67 | a pass that fails stops at one record: those before it completed, those after it are untouched |
| Scheduler.CurrentTickOutcome | src/shuffle.py:46-68 | a tick keeps the set of cached keys, keeps every record under its own id and leaves disabled records alone; it either completes every enabled record or stops at one and leaves the rest for the next tick |
| Scheduler.TickAbortsRest | src/shuffle.py:49-67 | a failure at the first record aborts the tick before a second record whose swap is due |
| Scheduler.LegacyWarnFailureRetries | Shuffle.py:51-72 | in the legacy version a failing reminder leaves the world unchanged and the warn still due |
| Commands.Edit | src/shuffle.py:156-163 | fails exactly when the lookup fails; otherwise the record reads back with the update applied, and only the community's own record and file are written |
| Commands.Toggle | src/shuffle.py:186-190 | flips `enabled` and changes nothing else; the reported value is the new one |
| Commands.ToggleTwice | src/shuffle.py:186-190 | toggling twice gives back the original record |
| Commands.SetLimit | src/shuffle.py:195-211 | writes the limit and reports the admin count computed from the cache afterwards |
| Commands.CurrentSetLimitReportsNewCount | src/shuffle.py:195-211 | in the current version the reported count is the clamp under the new settings, and it is missing only when the ratio is zero |
| Commands.LegacySetLimitLosesCount | Shuffle.py:170-184 | in the legacy version, with the record only on disk, the setting is written but the count raises |
| Commands.SetPlain | src/shuffle.py:216-225 | `setadmin` and `settime` change exactly their key |
| Commands.RemoveFirst | src/shuffle.py:251 | `list.remove` drops the first occurrence and keeps the order of the rest |
| Commands.RemoveFirstUndoesAppend | src/shuffle.py:242-251 | removing a role just appended to a list without it gives the list back |
| Commands.Ignore | src/shuffle.py:238-243 | appends the role to the ignore list, even when it is already listed |
| Commands.Unignore | src/shuffle.py:249-252 | removes the first occurrence of the role; a role not listed raises, leaving only what the lookup wrote |
| Commands.IgnoreThenUnignore | src/shuffle.py:238-252 | ignoring a new role and then unignoring it gives back the original record |
| Commands.ForceSwap | src/shuffle.py:293-294 | the current command runs a swap whether or not swapping is enabled, and a completed one reschedules the record |
| Commands.LegacySwapCommandIsInert | Shuffle.py:253-256 | the legacy `swap` command leaves the store unchanged, although the swap it names would have rescheduled |
| Scenarios.CountExamples | src/shuffle.py:124-126 | with min 1, max 3 and ratio 10: 25 members give 2 admins, 5 give 1 and 40 give 3 |
| Scenarios.IntervalExamples | src/shuffle.py:117-121 | `swapTime` 24 at second 1000 gives `nextSwap` 87400 in the current version and 2074600 in the legacy one |
| Scenarios.CurrentLeavesNoAdmin | src/shuffle.py:96-109 | a lone admin is dismissed, no candidate is left, and the sample raises with nobody holding the role |
| Scenarios.LegacyReappoints | Shuffle.py:83-98 | in the legacy version the same lone admin is dismissed and drawn again |

## Left out

- Calls into the chat platform are left out: `get_guild`, `get_role`,
  `member.send`, `add_roles`, `remove_roles` and `role.edit`. Communities are
  records in a map. Role edits and grants always succeed, except that granting a
  missing role fails. A failing direct message is a member in `dmFails`.
  Permissions are a set of names.
- The `asyncio` loop, the ten-second sleep and the `on_ready` wiring are left
  out. One tick is a pure step; the loop around it is not modelled.
- The exception handler around a tick is left out. It logs and carries on; the
  model returns the failure with the state reached.
- JSON and the filesystem are left out: opening, parsing, `os.listdir`,
  `os.mkdir` and the `"x"` creation mode. Files are a map from name to parsed
  record. The model claims neither atomic writes nor safe concurrent creation,
  because the code provides neither.
- `ConfigStore.InitConfig`: the case where the file appears between the lookup
  and the exclusive create is not modelled, because `GetConfig` only creates
  the record once the file is absent.
- The distribution of `random.sample` is not modelled. What is modelled is
  which results are possible.
- Floating-point time is not modelled. Each tick reads one integer `now`; the
  code reads the clock separately for each predicate and for the reschedule.
- The reply texts, `ignoredroles`, `timeleft`, `help` and `ping` are left out,
  because they only format output.
- `exec` is left out: it evaluates arbitrary code.
- `setstr`, `setbool`, `setint` and `getval` are left out. They take untyped
  keys; the model has typed updates of the known fields only.
- `isGuildOwner` is left out: it reads the library's context objects.
- `Bot.py` and `src/bot.py` are left out: they are process bootstrap.
- The `None` ignore list that `ignore` repairs is not modelled. The record's
  ignore list is always a list here.
- Records that are shared between several cache keys are not modelled after a
  reload or a rename. Only the aliasing that one legacy `setConfigValue`
  creates is modelled.
- Rotation.Swap: every stored field is taken to parse; the admin role id is a
  number in the model. In the code `int(config["adminRole"])` raises on a
  missing or non-numeric value (src/shuffle.py:72, 87). A warn then fails
  before any message, and a swap fails after `stripRoles` and before the
  member loop. Neither failure is modelled. A number that names no role of
  the community is modelled, as `get_role` returning `None`.
- Scheduler.CurrentTickOutcome: the whole-tick outcome is proved for the
  current version only. For the legacy version the model states the single
  visit (`Scheduler.LegacyWarnFailureRetries`) and `Scenarios.LegacyReappoints`,
  because legacy edits break the id keying that the pass proof relies on.
- Scheduler.Visit: the outcome is stated for records filed under their own id
  and for communities found under their id. The pass lemmas assume both.
- Scheduler.Visit: a visit reads the record stored under its key when the
  visit starts. The loop instead iterates the record objects it collected when
  the tick began. The two agree when no record object sits under two keys,
  which always holds in the current version. They also agree in the legacy
  version while a name key shares the object under the id, because a legacy
  edit writes both keys. They part after a legacy reload, which puts a fresh
  record under the id and leaves the old object under the name. The code then
  swaps that community once for the id and again for the stale object, whose
  `nextSwap` never moved. In the model the second visit sees the rescheduled
  record and does nothing. The model has no object identity, so it cannot tell
  a shared record from an equal copy.

The model keeps these behaviours of both versions of the code:

- a swap fires only when `now > nextSwap`, strictly;
- one exception handler surrounds the whole tick, so a failure at one community
  also skips the communities after it;
- the sample size is not clamped to the candidate pool, so a count larger than
  the pool raises;
- the admin count can fall below `minAdmins` when `minAdmins > maxAdmins`, and
  it counts bots and ignored members.

## Findings

| source | as written | input that shows it | evidently intended | confidence | as-written member | corrected member |
|---|---|---|---|---|---|---|
| Shuffle.py:141 | the edited record is cached under `str(server)`, the community's name | community id "1" named "Guild" with no record yet: after one edit the cache holds "Guild" with a record whose id is "1", and with the record only on disk `setmin` raises in the count after the write | cache the record under `str(server.id)` | high; not executed | ConfigStore.LegacySetBreaksKeying | ConfigStore.CurrentSetKeepsKeying |
| Shuffle.py:102 | `swapTime` is multiplied by 86400 | `swapTime` 24 at second 1000 schedules 2074600, 24 days on, while `settime` and the selection message speak of hours | multiply by 3600, giving 87400 | high; not executed | Scenarios.IntervalExamples | Rotation.Reschedule |
| Shuffle.py:256 | the `swap` command calls `swapAdmins` without awaiting it | any `swap` command: the coroutine is never run and the schedule and roles stay as they were | await the swap | high; not executed | Commands.LegacySwapCommandIsInert | Commands.ForceSwap |

=== FILE: commands.dfy ===
/**
 * The owner commands that edit a community's record, and the manual swap.
 * Each command reads the record of the community it is issued in, changes
 * one key through `SetConfigValue` and answers; the answer's text is not
 * modelled, only the values it reports.
 */
module Commands {
  import opened Outcomes
  import opened Platform
  import opened Settings
  import opened Policy
  import opened ConfigStore
  import opened Rotation
  import opened Sampling

  /** The keys and the file a command for `g` may write. */
  ghost predicate OnlyOwnRecord(v: Variant, st: Store, st': Store, g: Guild) {
    Touches(st, st', {g.id, CacheKey(v, g)}, FileName(g.id))
  }

  /** `g`'s record as the next read finds it. */
  ghost predicate ReadsBack(st: Store, g: Guild, template: Option<Config>, c: Config) {
    GetConfig(st, g.id, template).Ok? && ConfigOf(st, g, template) == c
  }

  /**
   * Writes `u` into the record of `g` after the command has fetched it,
   * and re-reads the record. The building block of every command below.
   */
  function Edit(v: Variant, st: Store, g: Guild, u: Update, template: Option<Config>): (r: Result<Store>)
    ensures r.Err? <==> GetConfig(st, g.id, template).Err?
    ensures r.Err? ==> r.failure == GetConfig(st, g.id, template).failure
    ensures r.Ok? ==>
      && ReadsBack(r.value, g, template, Apply(ConfigOf(st, g, template), u))
      && OnlyOwnRecord(v, st, r.value, g)
  {
    match GetConfig(st, g.id, template)
    case Err(f) => Err(f)
    case Ok(l) =>
      GetConfigIdempotent(st, g.id, template);
      SetThenGet(v, l.store, g, u, template);
      var r := SetConfigValue(v, l.store, g, u, template);
      TouchesTransitive(st, l.store, r.value, {g.id, CacheKey(v, g)}, FileName(g.id));
      r
  }

  datatype Toggled = Toggled(store: Store, enabled: bool)

  /**
   * `toggle`: flips `enabled` and reports the value read back, which is
   * the new one in both versions.
   */
  function Toggle(v: Variant, st: Store, g: Guild, template: Option<Config>): (r: Result<Toggled>)
    ensures r.Err? <==> GetConfig(st, g.id, template).Err?
    ensures r.Ok? ==>
      var prior := ConfigOf(st, g, template);
      && ReadsBack(r.value.store, g, template, prior.(enabled := !prior.enabled))
      && r.value.enabled == !prior.enabled
      && OnlyOwnRecord(v, st, r.value.store, g)
  {
    match GetConfig(st, g.id, template)
    case Err(f) => Err(f)
    case Ok(l) =>
      match Edit(v, st, g, SetEnabled(!l.config.enabled), template)
      case Err(f) => Err(f)
      case Ok(st') => Ok(Toggled(st', ConfigOf(st', g, template).enabled))
  }

  /** Toggling twice gives back the record as it was. */
  lemma ToggleTwice(v: Variant, st: Store, g: Guild, template: Option<Config>)
    requires Toggle(v, st, g, template).Ok?
    ensures var once := Toggle(v, st, g, template).value.store;
            && Toggle(v, once, g, template).Ok?
            && ReadsBack(Toggle(v, once, g, template).value.store, g, template, ConfigOf(st, g, template))
  {
  }

  /**
   * What `setmin`, `setmax` and `setratio` report: the record is written,
   * then the admin count is computed from the cache under the community's
   * id. A count that raises does so after the write.
   */
  datatype Reported = Reported(store: Store, count: Result<int>)

  function SetLimit(v: Variant, st: Store, g: Guild, u: Update, template: Option<Config>): (r: Result<Reported>)
    requires u.SetMinAdmins? || u.SetMaxAdmins? || u.SetAdminRatio?
    ensures r.Err? <==> GetConfig(st, g.id, template).Err?
    ensures r.Ok? ==>
      && ReadsBack(r.value.store, g, template, Apply(ConfigOf(st, g, template), u))
      && OnlyOwnRecord(v, st, r.value.store, g)
      && r.value.count == AdminCount(r.value.store.cache, g)
  {
    match Edit(v, st, g, u, template)
    case Err(f) => Err(f)
    case Ok(st') => Ok(Reported(st', AdminCount(st'.cache, g)))
  }

  /**
   * Current version: the count reported after a limit change is the one
   * the new settings give, and it is only missing when the ratio is zero.
   */
  lemma CurrentSetLimitReportsNewCount(st: Store, g: Guild, u: Update, template: Option<Config>)
    requires u.SetMinAdmins? || u.SetMaxAdmins? || u.SetAdminRatio?
    requires GetConfig(st, g.id, template).Ok?
    ensures var r := SetLimit(Current, st, g, u, template);
            var c := Apply(ConfigOf(st, g, template), u);
            && r.Ok?
            && (r.value.count.Ok? <==> c.adminRatio != 0)
            && (r.value.count.Ok? ==>
                  r.value.count.value == Clamp(c.minAdmins, c.maxAdmins, TruncDiv(|g.members|, c.adminRatio)))
  {
    var r := SetLimit(Current, st, g, u, template);
    assert g.id in r.value.store.cache;
  }

  /**
   * Legacy version: when the record is read from its file rather than from
   * the cache, the write lands under the community's name, so the count
   * that follows finds nothing under the id and the command raises after
   * having changed the setting.
   */
  lemma LegacySetLimitLosesCount(st: Store, g: Guild, u: Update, template: Option<Config>)
    requires u.SetMinAdmins? || u.SetMaxAdmins? || u.SetAdminRatio?
    requires g.id != g.name && g.id !in st.cache
    requires FileName(g.id) in st.files && st.files[FileName(g.id)].Parsed?
    ensures var r := SetLimit(Legacy, st, g, u, template);
            && r.Ok?
            && ReadsBack(r.value.store, g, template, Apply(st.files[FileName(g.id)].config, u))
            && r.value.count == Err(NotCached(g.id))
  {
  }

  /** `setadmin` and `settime`: write the key, report nothing computed. */
  function SetPlain(v: Variant, st: Store, g: Guild, u: Update, template: Option<Config>): (r: Result<Store>)
    requires u.SetAdminRole? || u.SetSwapTime?
    ensures r.Err? <==> GetConfig(st, g.id, template).Err?
    ensures r.Ok? ==>
      var prior := ConfigOf(st, g, template);
      && ReadsBack(r.value, g, template, Apply(prior, u))
      && Get(ConfigOf(r.value, g, template), u.Key()) == u.NewValue()
      && (forall f :: f != u.Key() ==> Get(ConfigOf(r.value, g, template), f) == Get(prior, f))
      && OnlyOwnRecord(v, st, r.value, g)
  {
    Edit(v, st, g, u, template)
  }

  /**
   * `list.remove`: drops the first occurrence of `x`. The callers check
   * membership first and raise otherwise.
   */
  function RemoveFirst(s: seq<RoleId>, x: RoleId): (r: seq<RoleId>)
    requires x in s
    ensures |r| == |s| - 1
    ensures multiset(r) == multiset(s) - multiset{x}
    ensures exists i :: 0 <= i < |s| && s[i] == x && x !in s[..i] && r == s[..i] + s[i + 1..]
  {
    var i := FirstIndex(s, x);
    RemoveAtMultiset(s, i);
    RemoveAt(s, i)
  }

  /** Removing the role just appended to a list without it gives the list back. */
  lemma RemoveFirstUndoesAppend(s: seq<RoleId>, x: RoleId)
    requires x !in s
    ensures RemoveFirst(s + [x], x) == s
  {
    var r := RemoveFirst(s + [x], x);
    var i :| 0 <= i < |s + [x]| && (s + [x])[i] == x && x !in (s + [x])[..i] && r == (s + [x])[..i] + (s + [x])[i + 1..];
    assert i == |s|;
  }

  /** `ignore`: appends the role to the ignore list, even when it is already there. */
  function Ignore(v: Variant, st: Store, g: Guild, role: RoleId, template: Option<Config>): (r: Result<Store>)
    ensures r.Err? <==> GetConfig(st, g.id, template).Err?
    ensures r.Ok? ==>
      var prior := ConfigOf(st, g, template);
      && ReadsBack(r.value, g, template, prior.(ignoreRoles := prior.ignoreRoles + [role]))
      && OnlyOwnRecord(v, st, r.value, g)
  {
    match GetConfig(st, g.id, template)
    case Err(f) => Err(f)
    case Ok(l) => Edit(v, st, g, SetIgnoreRoles(l.config.ignoreRoles + [role]), template)
  }

  /** A command that may raise after some of its effects. */
  datatype Edited = Edited(store: Store, failure: Option<Failure>)

  /**
   * `unignore`: removes the first occurrence of the role. A role that is
   * not listed raises before anything is written, though a record created
   * by the lookup stays created.
   */
  function Unignore(v: Variant, st: Store, g: Guild, role: RoleId, template: Option<Config>): (r: Edited)
    ensures GetConfig(st, g.id, template).Err? ==> r == Edited(st, Some(GetConfig(st, g.id, template).failure))
    ensures GetConfig(st, g.id, template).Ok? ==>
      var l := GetConfig(st, g.id, template).value;
      && (r.failure.Some? <==> role !in l.config.ignoreRoles)
      && (r.failure.Some? ==> r == Edited(l.store, Some(NotIgnored(role))))
      && (r.failure.None? ==>
            ReadsBack(r.store, g, template, l.config.(ignoreRoles := RemoveFirst(l.config.ignoreRoles, role))))
      && OnlyOwnRecord(v, st, r.store, g)
  {
    match GetConfig(st, g.id, template)
    case Err(f) => Edited(st, Some(f))
    case Ok(l) =>
      if role !in l.config.ignoreRoles then Edited(l.store, Some(NotIgnored(role)))
      else match Edit(v, st, g, SetIgnoreRoles(RemoveFirst(l.config.ignoreRoles, role)), template)
        case Err(f) => Edited(st, Some(f))
        case Ok(st') => Edited(st', None)
  }

  /** Ignoring a role that was not ignored and then unignoring it gives back the record. */
  lemma IgnoreThenUnignore(v: Variant, st: Store, g: Guild, role: RoleId, template: Option<Config>)
    requires GetConfig(st, g.id, template).Ok?
    requires role !in ConfigOf(st, g, template).ignoreRoles
    ensures var once := Ignore(v, st, g, role, template);
            && once.Ok?
            && Unignore(v, once.value, g, role, template).failure.None?
            && ReadsBack(Unignore(v, once.value, g, role, template).store, g, template, ConfigOf(st, g, template))
  {
    var prior := ConfigOf(st, g, template);
    RemoveFirstUndoesAppend(prior.ignoreRoles, role);
  }

  /**
   * `swap`: the current version runs a swap at once, whether or not
   * swapping is enabled. The legacy command calls the coroutine without
   * awaiting it, so nothing happens.
   */
  function ForceSwap(v: Variant, st: Store, g: Guild, now: int, picks: seq<nat>,
                     dmFails: set<MemberId>, template: Option<Config>): (r: Run)
    ensures !v.AwaitsForcedSwap() ==> r == Run(st, g, [], [], None)
    ensures v.AwaitsForcedSwap() && GetConfig(st, g.id, template).Ok? && r.failure.None? ==>
      var c := ConfigOf(st, g, template);
      ReadsBack(r.store, g, template, c.(nextSwap := now + c.swapTime * v.IntervalUnit(), warned := false))
    ensures OnlyOwnRecord(v, st, r.store, g)
  {
    if v.AwaitsForcedSwap() then Swap(v, st, g, now, picks, dmFails, template)
    else Run(st, g, [], [], None)
  }

  /**
   * Legacy version: a `swap` command leaves the store as it was, so the
   * next read finds the old schedule, where the swap it names would have
   * moved the schedule on by `swapTime` days.
   */
  lemma LegacySwapCommandIsInert(st: Store, g: Guild, now: int, picks: seq<nat>,
                                 dmFails: set<MemberId>, template: Option<Config>)
    requires g.id in st.cache
    requires Swap(Legacy, st, g, now, picks, dmFails, template).failure.None?
    ensures var forced := ForceSwap(Legacy, st, g, now, picks, dmFails, template);
            var swapped := Swap(Legacy, st, g, now, picks, dmFails, template);
            && forced.store == st
            && ReadsBack(forced.store, g, template, st.cache[g.id])
            && ReadsBack(swapped.store, g, template, st.cache[g.id].(nextSwap := now + st.cache[g.id].swapTime * 86400, warned := false))
  {
  }
}

=== FILE: outcomes.dfy ===
/**
 * Result values for the operations of the rotation core. The original code
 * raises Python exceptions; an operation that fails half-way keeps the side
 * effects it already made, so the stepping functions return the state they
 * reached together with an optional `Failure`.
 */
module Outcomes {

  datatype Option<+T> = None | Some(value: T)

  /** The exceptions the modelled code can raise, one constructor per cause. */
  datatype Failure =
    | MalformedRecord(file: string)        // json.load fails or the record lacks a field
    | MissingTemplate                      // the default record cannot be opened
    | NotCached(key: string)               // KeyError on the in-memory map
    | ZeroRatio                            // ZeroDivisionError in the admin count
    | BadSampleSize(count: int, pool: nat) // ValueError from random.sample
    | AdminRoleMissing                     // add_roles(None): the admin role does not exist
    | DirectMessageFailed(member: nat)     // an unguarded member.send raised
    | UnknownGuild(id: string)             // get_guild returned None
    | NotIgnored(role: nat)                // list.remove of a role that is not in the list

  datatype Result<+T> = Ok(value: T) | Err(failure: Failure)
}

=== FILE: platform.dfy ===
/**
 * The community platform, reduced to the data the rotation reads and writes:
 * members with their role sets, roles with their permission sets, and the
 * direct messages the bot delivers.
 */
module Platform {

  type MemberId = nat
  type RoleId = nat

  /** Permission names; the fifteen named ones make up the standard set. */
  datatype Permission =
    | ViewChannel | ViewAuditLog | CreateInstantInvite | ChangeNickname
    | SendMessages | EmbedLinks | AttachFiles | AddReactions
    | UseExternalEmojis | ReadMessageHistory | UseSlashCommands
    | Connect | Speak | Stream | UseVoiceActivation
    | Other(name: string)

  /** The baseline every non-exempt role is reset to after a swap. */
  const Standard: set<Permission> :=
    {ViewChannel, ViewAuditLog, CreateInstantInvite, ChangeNickname,
     SendMessages, EmbedLinks, AttachFiles, AddReactions,
     UseExternalEmojis, ReadMessageHistory, UseSlashCommands,
     Connect, Speak, Stream, UseVoiceActivation}

  datatype Member = Member(id: MemberId, roleIds: set<RoleId>, isBot: bool)

  datatype Role = Role(id: RoleId, perms: set<Permission>)

  /** A community; `id` is the decimal form of its numeric identifier. */
  datatype Guild = Guild(id: string, name: string, members: seq<Member>, roles: seq<Role>)

  datatype NoticeKind = Reminder | Dismissal | Selection(hours: int)

  /** A direct message that reached its recipient. */
  datatype Notice = Notice(to: MemberId, kind: NoticeKind)

  predicate HasRoleId(roles: seq<Role>, id: RoleId) {
    exists i :: 0 <= i < |roles| && roles[i].id == id
  }

  function Demote(m: Member, role: RoleId): Member {
    m.(roleIds := m.roleIds - {role})
  }

  function Promote(m: Member, role: RoleId): Member {
    m.(roleIds := m.roleIds + {role})
  }
}

=== FILE: policy.dfy ===
/**
 * The two versions of the cog differ in a handful of policy points. The
 * rotation engine takes the version as a parameter and asks it for each one.
 */
module Policy {

  datatype Variant = Current | Legacy {

    /** Whether a member who just lost the admin role stays a candidate. */
    predicate AllowsReselection() {
      Legacy?
    }

    /** Seconds per unit of `swapTime`. */
    function IntervalUnit(): (u: int)
      ensures u > 0
    {
      if Current? then 3600 else 24 * 3600
    }

    /** Whether a failing direct message is caught and ignored. */
    predicate GuardsDirectMessages() {
      Current?
    }

    /** Whether reloading from disk starts from an empty cache. */
    predicate ClearsCacheOnLoad() {
      Current?
    }

    /** Whether the manual `swap` command actually runs the swap. */
    predicate AwaitsForcedSwap() {
      Current?
    }
  }
}

=== FILE: rotation.dfy ===
/**
 * The rotation engine: the admin count, the permission reset, the warning
 * and the swap of one community. Role edits and role grants always succeed
 * here; a direct message fails for the members in `dmFails`.
 */
module Rotation {
  import opened Outcomes
  import opened Platform
  import opened Settings
  import opened Policy
  import opened ConfigStore
  import opened Sampling

  /** What a warn or swap leaves behind; `chosen` are the positions of the new admins. */
  datatype Run = Run(store: Store, guild: Guild, outbox: seq<Notice>, chosen: seq<nat>, failure: Option<Failure>)

  // ---------------------------------------------------------------- count

  /** `int(n / d)` for a member count `n`: float division truncated toward zero. */
  function TruncDiv(n: nat, d: int): (q: int)
    requires d != 0
    ensures d > 0 ==> 0 <= q && q * d <= n < q * d + d
    ensures d < 0 ==> q <= 0 && q * d <= n < q * d - d
  {
    if d > 0 then n / d else -(n / -d)
  }

  /** `min(hi, max(lo, x))`. */
  function Clamp(lo: int, hi: int, x: int): (r: int)
    ensures r <= hi
    ensures lo <= hi ==> lo <= r
    ensures lo <= x <= hi ==> r == x
    ensures x < lo ==> r == (if lo <= hi then lo else hi)
    ensures x > hi ==> r == hi
  {
    if hi < (if lo < x then x else lo) then hi else if lo < x then x else lo
  }

  /**
   * `getAdminCount`: reads the record straight from the cache under the
   * community's id and clamps the member count divided by the ratio. Every
   * member counts, bots and holders of ignored roles included.
   */
  function AdminCount(cache: map<string, Config>, g: Guild): (r: Result<int>)
    ensures r.Err? <==> g.id !in cache || cache[g.id].adminRatio == 0
    ensures r.Err? && g.id !in cache ==> r.failure == NotCached(g.id)
    ensures r.Ok? ==>
      var c := cache[g.id];
      var q := TruncDiv(|g.members|, c.adminRatio);
      && r.value <= c.maxAdmins
      && (c.minAdmins <= c.maxAdmins ==> c.minAdmins <= r.value)
      && (c.minAdmins <= q <= c.maxAdmins ==> r.value == q)
      && (q < c.minAdmins ==> r.value == (if c.minAdmins <= c.maxAdmins then c.minAdmins else c.maxAdmins))
      && (q > c.maxAdmins ==> r.value == c.maxAdmins)
  {
    if g.id !in cache then Err(NotCached(g.id))
    else
      var c := cache[g.id];
      if c.adminRatio == 0 then Err(ZeroRatio)
      else Ok(Clamp(c.minAdmins, c.maxAdmins, TruncDiv(|g.members|, c.adminRatio)))
  }

  /** The count depends on how many members there are, not on who they are. */
  lemma AdminCountCountsEveryMember(cache: map<string, Config>, g: Guild, h: Guild)
    requires g.id == h.id && |g.members| == |h.members|
    ensures AdminCount(cache, g) == AdminCount(cache, h)
  {
  }

  // ---------------------------------------------------------------- strip

  /** Roles `stripRoles` never edits: the ignored roles and the admin role. */
  predicate KeepsPermissions(c: Config, r: Role) {
    r.id in c.ignoreRoles || r.id == c.adminRole
  }

  /** Whether `stripRoles` edits this role. */
  predicate NeedsReset(c: Config, r: Role) {
    !KeepsPermissions(c, r) && r.perms != Standard
  }

  datatype Stripped = Stripped(roles: seq<Role>, edited: seq<RoleId>)

  /**
   * `stripRoles`: every role that is neither ignored nor the admin role is
   * set to the standard permissions; roles already there are not edited.
   */
  function StripRoles(c: Config, roles: seq<Role>): (s: Stripped)
    ensures |s.roles| == |roles|
    ensures forall i :: 0 <= i < |roles| ==> s.roles[i].id == roles[i].id
    ensures forall i :: 0 <= i < |roles| && KeepsPermissions(c, roles[i]) ==> s.roles[i] == roles[i]
    ensures forall i :: 0 <= i < |roles| && !KeepsPermissions(c, roles[i]) ==> s.roles[i].perms == Standard
    ensures forall x :: x in s.edited <==> exists i :: 0 <= i < |roles| && NeedsReset(c, roles[i]) && roles[i].id == x
    decreases |roles|
  {
    if |roles| == 0 then Stripped([], [])
    else
      var p := StripRoles(c, roles[..|roles| - 1]);
      var r := roles[|roles| - 1];
      if NeedsReset(c, r) then Stripped(p.roles + [r.(perms := Standard)], p.edited + [r.id])
      else Stripped(p.roles + [r], p.edited)
  }

  /** A second reset edits nothing and changes nothing. */
  lemma StripRolesIdempotent(c: Config, roles: seq<Role>)
    ensures var once := StripRoles(c, roles).roles;
            StripRoles(c, once) == Stripped(once, [])
  {
    var once := StripRoles(c, roles).roles;
    var twice := StripRoles(c, once);
    assert forall i :: 0 <= i < |once| ==> !NeedsReset(c, once[i]);
    assert twice.roles == once;
  }

  // ---------------------------------------------------------------- sweep

  /** A bot, or a holder of any ignored role: skipped by the swap entirely. */
  predicate Exempt(c: Config, m: Member) {
    m.isBot || exists r :: r in c.ignoreRoles && r in m.roleIds
  }

  /** `server.get_role(adminRole)`: the admin role if the community has it. */
  function AdminRoleOf(g: Guild, c: Config): Option<RoleId>
  {
    if HasRoleId(g.roles, c.adminRole) then Some(c.adminRole) else None
  }

  /** `adminRole in member.roles`; never true when the role is missing. */
  predicate Holds(admin: Option<RoleId>, m: Member) {
    admin.Some? && admin.value in m.roleIds
  }

  /** Members who enter the candidate pool. */
  predicate Candidate(v: Variant, c: Config, admin: Option<RoleId>, m: Member) {
    !Exempt(c, m) && (v.AllowsReselection() || !Holds(admin, m))
  }

  /** Members who lose the admin role. */
  predicate Dismissed(c: Config, admin: Option<RoleId>, m: Member) {
    !Exempt(c, m) && Holds(admin, m)
  }

  predicate Increasing(s: seq<nat>) {
    forall i, j :: 0 <= i < j < |s| ==> s[i] < s[j]
  }

  lemma AppendKeepsIncreasing(s: seq<nat>, x: nat)
    requires Increasing(s)
    requires forall j :: j in s ==> j < x
    ensures Increasing(s + [x])
  {
    assert forall k :: 0 <= k < |s| ==> s[k] in s;
  }

  datatype Swept = Swept(members: seq<Member>, pool: seq<nat>, outbox: seq<Notice>, failure: Option<Failure>)

  /**
   * The member loop of `swapAdmins`, in member order: exempt members are
   * skipped, every other admin-role holder loses the role and is told so,
   * and the remaining members (plus, in the legacy version, the dismissed
   * ones) become candidates. The pool holds positions in `ms`. In the legacy
   * version a failing message stops the loop right after that removal.
   */
  function Sweep(v: Variant, c: Config, admin: Option<RoleId>, ms: seq<Member>, dmFails: set<MemberId>): (s: Swept)
    ensures |s.members| == |ms|
    ensures forall i :: 0 <= i < |ms| ==>
      s.members[i] == ms[i] || (Dismissed(c, admin, ms[i]) && s.members[i] == Demote(ms[i], admin.value))
    ensures s.failure.None? ==> forall i :: 0 <= i < |ms| && Dismissed(c, admin, ms[i]) ==> s.members[i] == Demote(ms[i], admin.value)
    ensures s.failure.None? ==> forall j :: j in s.pool <==> 0 <= j < |ms| && Candidate(v, c, admin, ms[j])
    ensures forall j :: j in s.pool ==> j < |ms|
    ensures Increasing(s.pool)
    ensures forall k :: 0 <= k < |s.outbox| ==> s.outbox[k].kind == Dismissal && s.outbox[k].to !in dmFails
    decreases |ms|
  {
    if |ms| == 0 then Swept([], [], [], None)
    else
      var last := |ms| - 1;
      var p := Sweep(v, c, admin, ms[..last], dmFails);
      AppendKeepsIncreasing(p.pool, last);
      var m := ms[last];
      if p.failure.Some? || Exempt(c, m) then Swept(p.members + [m], p.pool, p.outbox, p.failure)
      else if Holds(admin, m) then
        var members := p.members + [Demote(m, admin.value)];
        if m.id in dmFails && !v.GuardsDirectMessages() then
          Swept(members, p.pool, p.outbox, Some(DirectMessageFailed(m.id)))
        else
          var pool := if v.AllowsReselection() then p.pool + [last] else p.pool;
          var note := if m.id in dmFails then [] else [Notice(m.id, Dismissal)];
          Swept(members, pool, p.outbox + note, None)
      else p.(members := p.members + [m], pool := p.pool + [last])
  }

  /** The ids of the members of `ms` that the member loop dismisses. */
  ghost function DismissedIds(c: Config, admin: Option<RoleId>, ms: seq<Member>): set<MemberId> {
    set i | 0 <= i < |ms| && Dismissed(c, admin, ms[i]) :: ms[i].id
  }

  /** Dismissal messages go only to dismissed members. */
  lemma {:induction false} SweepNotifiesOnlyDismissed(v: Variant, c: Config, admin: Option<RoleId>, ms: seq<Member>, dmFails: set<MemberId>)
    ensures forall n :: n in Sweep(v, c, admin, ms, dmFails).outbox ==> n.to in DismissedIds(c, admin, ms)
    decreases |ms|
  {
    if |ms| > 0 {
      var last := |ms| - 1;
      var front := ms[..last];
      SweepNotifiesOnlyDismissed(v, c, admin, front, dmFails);
      var p := Sweep(v, c, admin, front, dmFails);
      var s := Sweep(v, c, admin, ms, dmFails);
      forall x | x in DismissedIds(c, admin, front)
        ensures x in DismissedIds(c, admin, ms)
      {
        var i :| 0 <= i < last && Dismissed(c, admin, front[i]) && front[i].id == x;
        assert front[i] == ms[i];
      }
      assert s.outbox == p.outbox || (Dismissed(c, admin, ms[last]) && s.outbox == p.outbox + [Notice(ms[last].id, Dismissal)]);
      if Dismissed(c, admin, ms[last]) {
        assert ms[last].id in DismissedIds(c, admin, ms);
      }
    }
  }

  /** After a completed member loop, every dismissed member whose message goes through has been told. */
  lemma {:induction false} SweepNotifiesEveryDismissed(v: Variant, c: Config, admin: Option<RoleId>, ms: seq<Member>, dmFails: set<MemberId>)
    ensures var s := Sweep(v, c, admin, ms, dmFails);
            s.failure.None? ==>
              forall i :: 0 <= i < |ms| && Dismissed(c, admin, ms[i]) && ms[i].id !in dmFails ==>
                Notice(ms[i].id, Dismissal) in s.outbox
    decreases |ms|
  {
    if |ms| > 0 {
      var last := |ms| - 1;
      var front := ms[..last];
      SweepNotifiesEveryDismissed(v, c, admin, front, dmFails);
      var p := Sweep(v, c, admin, front, dmFails);
      var s := Sweep(v, c, admin, ms, dmFails);
      if s.failure.None? {
        assert p.failure.None?;
        assert forall n :: n in p.outbox ==> n in s.outbox;
        forall i | 0 <= i < |ms| && Dismissed(c, admin, ms[i]) && ms[i].id !in dmFails
          ensures Notice(ms[i].id, Dismissal) in s.outbox
        {
          if i < last {
            assert front[i] == ms[i];
          }
        }
      }
    }
  }

  /**
   * The member loop raises exactly when, in the legacy version, a dismissed
   * member cannot be sent the dismissal message.
   */
  lemma {:induction false} SweepFailure(v: Variant, c: Config, admin: Option<RoleId>, ms: seq<Member>, dmFails: set<MemberId>)
    ensures Sweep(v, c, admin, ms, dmFails).failure.Some? <==>
      !v.GuardsDirectMessages() && exists i :: 0 <= i < |ms| && Dismissed(c, admin, ms[i]) && ms[i].id in dmFails
    decreases |ms|
  {
    if |ms| > 0 {
      var last := |ms| - 1;
      var front := ms[..last];
      var m := ms[last];
      SweepFailure(v, c, admin, front, dmFails);
      SweepFailsAtLast(v, c, admin, ms, dmFails);
      if exists j :: 0 <= j < |front| && Dismissed(c, admin, front[j]) && front[j].id in dmFails {
        var j :| 0 <= j < |front| && Dismissed(c, admin, front[j]) && front[j].id in dmFails;
        assert ms[j] == front[j];
      }
      if exists j :: 0 <= j < |ms| && Dismissed(c, admin, ms[j]) && ms[j].id in dmFails {
        var j :| 0 <= j < |ms| && Dismissed(c, admin, ms[j]) && ms[j].id in dmFails;
        if j < last {
          assert front[j] == ms[j];
        }
      }
    }
  }

  /** The member loop over `ms` raises when it raised before the last member or at the last member. */
  lemma SweepFailsAtLast(v: Variant, c: Config, admin: Option<RoleId>, ms: seq<Member>, dmFails: set<MemberId>)
    requires |ms| > 0
    ensures var m := ms[|ms| - 1];
            Sweep(v, c, admin, ms, dmFails).failure.Some? <==>
              Sweep(v, c, admin, ms[..|ms| - 1], dmFails).failure.Some? ||
              (!v.GuardsDirectMessages() && Dismissed(c, admin, m) && m.id in dmFails)
  {
  }

  // ---------------------------------------------------------------- grant

  datatype Granted = Granted(members: seq<Member>, outbox: seq<Notice>, failure: Option<Failure>)

  /**
   * The grant loop of `swapAdmins`, in sample order: each new admin gets the
   * role and is told for how many hours. Granting a role the community does
   * not have fails at the first new admin; in the legacy version a failing
   * message stops the loop right after that grant.
   */
  function Grant(v: Variant, admin: Option<RoleId>, ms: seq<Member>, chosen: seq<nat>, hours: int, dmFails: set<MemberId>): (r: Granted)
    requires forall k :: 0 <= k < |chosen| ==> chosen[k] < |ms|
    ensures |r.members| == |ms|
    ensures forall i :: 0 <= i < |ms| ==>
      r.members[i] == ms[i] || (i in chosen && admin.Some? && r.members[i] == Promote(ms[i], admin.value))
    ensures r.failure.None? ==> |chosen| == 0 || admin.Some?
    ensures r.failure.None? ==> forall i :: i in chosen ==> r.members[i] == Promote(ms[i], admin.value)
    ensures admin.None? && |chosen| > 0 ==> r.failure == Some(AdminRoleMissing) && r.members == ms
    ensures admin.Some? && v.GuardsDirectMessages() ==> r.failure.None?
    ensures r.failure.Some? ==> r.failure.value == AdminRoleMissing || r.failure.value.DirectMessageFailed?
    ensures forall k :: 0 <= k < |r.outbox| ==> r.outbox[k] == Notice(r.outbox[k].to, Selection(hours)) && r.outbox[k].to !in dmFails
    decreases |chosen|
  {
    if |chosen| == 0 then Granted(ms, [], None)
    else
      var p := Grant(v, admin, ms, chosen[..|chosen| - 1], hours, dmFails);
      var j := chosen[|chosen| - 1];
      if p.failure.Some? then p
      else if admin.None? then p.(failure := Some(AdminRoleMissing))
      else
        var m := p.members[j];
        var members := p.members[j := Promote(m, admin.value)];
        if m.id in dmFails && !v.GuardsDirectMessages() then
          Granted(members, p.outbox, Some(DirectMessageFailed(m.id)))
        else
          var note := if m.id in dmFails then [] else [Notice(m.id, Selection(hours))];
          Granted(members, p.outbox + note, None)
  }

  /** The ids of the members at the positions in `chosen`. */
  ghost function ChosenIds(ms: seq<Member>, chosen: seq<nat>): set<MemberId> {
    set j | j in chosen && j < |ms| :: ms[j].id
  }

  /** Selection messages go only to chosen members. */
  lemma {:induction false} GrantNotifiesOnlyChosen(v: Variant, admin: Option<RoleId>, ms: seq<Member>, chosen: seq<nat>, hours: int, dmFails: set<MemberId>)
    requires forall k :: 0 <= k < |chosen| ==> chosen[k] < |ms|
    ensures forall n :: n in Grant(v, admin, ms, chosen, hours, dmFails).outbox ==> n.to in ChosenIds(ms, chosen)
    decreases |chosen|
  {
    if |chosen| > 0 {
      var front := chosen[..|chosen| - 1];
      GrantNotifiesOnlyChosen(v, admin, ms, front, hours, dmFails);
      assert ChosenIds(ms, front) <= ChosenIds(ms, chosen);
      var j := chosen[|chosen| - 1];
      assert ms[j].id in ChosenIds(ms, chosen);
      var p := Grant(v, admin, ms, front, hours, dmFails);
      var r := Grant(v, admin, ms, chosen, hours, dmFails);
      assert p.members[j].id == ms[j].id;
      assert r.outbox == p.outbox || r.outbox == p.outbox + [Notice(ms[j].id, Selection(hours))];
    }
  }

  /** After a completed grant loop, every chosen member whose message goes through has been told. */
  lemma {:induction false} GrantNotifiesEveryChosen(v: Variant, admin: Option<RoleId>, ms: seq<Member>, chosen: seq<nat>, hours: int, dmFails: set<MemberId>)
    requires forall k :: 0 <= k < |chosen| ==> chosen[k] < |ms|
    ensures var r := Grant(v, admin, ms, chosen, hours, dmFails);
            r.failure.None? ==>
              forall j :: j in chosen && ms[j].id !in dmFails ==> Notice(ms[j].id, Selection(hours)) in r.outbox
    decreases |chosen|
  {
    if |chosen| > 0 {
      var front := chosen[..|chosen| - 1];
      GrantNotifiesEveryChosen(v, admin, ms, front, hours, dmFails);
      var last := chosen[|chosen| - 1];
      var p := Grant(v, admin, ms, front, hours, dmFails);
      var r := Grant(v, admin, ms, chosen, hours, dmFails);
      if r.failure.None? {
        assert p.failure.None?;
        assert p.members[last].id == ms[last].id;
        assert forall n :: n in p.outbox ==> n in r.outbox;
        forall j | j in chosen && ms[j].id !in dmFails
          ensures Notice(ms[j].id, Selection(hours)) in r.outbox
        {
          if j != last {
            assert j in front by {
              var k :| 0 <= k < |chosen| && chosen[k] == j;
              assert k < |chosen| - 1 && front[k] == j;
            }
          }
        }
      }
    }
  }

  // ---------------------------------------------------------------- warn

  datatype Reminded = Reminded(outbox: seq<Notice>, failure: Option<Failure>)

  /**
   * The loop of `warnAdmins`: every admin-role holder, exempt or not, is
   * reminded. In the legacy version the first failing message stops it.
   */
  function Remind(v: Variant, admin: Option<RoleId>, ms: seq<Member>, dmFails: set<MemberId>): (r: Reminded)
    ensures r.failure.Some? <==>
      !v.GuardsDirectMessages() && exists i :: 0 <= i < |ms| && Holds(admin, ms[i]) && ms[i].id in dmFails
    ensures r.failure.None? ==> forall i :: 0 <= i < |ms| && Holds(admin, ms[i]) && ms[i].id !in dmFails ==>
      Notice(ms[i].id, Reminder) in r.outbox
    ensures forall k :: 0 <= k < |r.outbox| ==> r.outbox[k].kind == Reminder && r.outbox[k].to !in dmFails
    decreases |ms|
  {
    if |ms| == 0 then Reminded([], None)
    else
      var p := Remind(v, admin, ms[..|ms| - 1], dmFails);
      var m := ms[|ms| - 1];
      if p.failure.Some? || !Holds(admin, m) then p
      else if m.id in dmFails then
        if v.GuardsDirectMessages() then p else p.(failure := Some(DirectMessageFailed(m.id)))
      else p.(outbox := p.outbox + [Notice(m.id, Reminder)])
  }

  /** The ids of the members of `ms` who hold the admin role. */
  ghost function HolderIds(admin: Option<RoleId>, ms: seq<Member>): set<MemberId> {
    set i | 0 <= i < |ms| && Holds(admin, ms[i]) :: ms[i].id
  }

  /** Reminders go only to holders of the admin role. */
  lemma {:induction false} RemindNotifiesOnlyHolders(v: Variant, admin: Option<RoleId>, ms: seq<Member>, dmFails: set<MemberId>)
    ensures forall n :: n in Remind(v, admin, ms, dmFails).outbox ==> n.to in HolderIds(admin, ms)
    decreases |ms|
  {
    if |ms| > 0 {
      var last := |ms| - 1;
      RemindNotifiesOnlyHolders(v, admin, ms[..last], dmFails);
      var p := Remind(v, admin, ms[..last], dmFails);
      var r := Remind(v, admin, ms, dmFails);
      forall x | x in HolderIds(admin, ms[..last])
        ensures x in HolderIds(admin, ms)
      {
        var i :| 0 <= i < last && Holds(admin, ms[..last][i]) && ms[..last][i].id == x;
        assert ms[..last][i] == ms[i];
      }
      assert r.outbox == p.outbox || (Holds(admin, ms[last]) && r.outbox == p.outbox + [Notice(ms[last].id, Reminder)]);
      if Holds(admin, ms[last]) {
        assert ms[last].id in HolderIds(admin, ms);
      }
    }
  }

  /** The record `GetConfig` hands a warn or swap of `g`. */
  function ConfigOf(st: Store, g: Guild, template: Option<Config>): Config
    requires GetConfig(st, g.id, template).Ok?
  {
    GetConfig(st, g.id, template).value.config
  }

  /**
   * `warnAdmins`: remind the admin-role holders, then set `warned`. The
   * current version does so even when messages fail; in the legacy version
   * a failing message leaves `warned` unwritten.
   */
  function Warn(v: Variant, st: Store, g: Guild, dmFails: set<MemberId>, template: Option<Config>): (r: Run)
    ensures r.guild == g && r.chosen == []
    ensures GetConfig(st, g.id, template).Err? ==> r.store == st && r.failure == Some(GetConfig(st, g.id, template).failure)
    ensures GetConfig(st, g.id, template).Ok? && r.failure.None? ==>
      var c := ConfigOf(st, g, template);
      && CacheKey(v, g) in r.store.cache
      && r.store.cache[CacheKey(v, g)] == c.(warned := true)
      && GetConfig(r.store, g.id, template).Ok?
      && ConfigOf(r.store, g, template) == c.(warned := true)
    ensures GetConfig(st, g.id, template).Ok? ==>
      (r.failure.Some? <==>
        !v.GuardsDirectMessages() &&
        exists i :: 0 <= i < |g.members| && Holds(AdminRoleOf(g, ConfigOf(st, g, template)), g.members[i]) && g.members[i].id in dmFails)
    ensures GetConfig(st, g.id, template).Ok? && r.failure.Some? ==>
      && !v.GuardsDirectMessages()
      && r.store == GetConfig(st, g.id, template).value.store
    ensures Touches(st, r.store, {g.id, CacheKey(v, g)}, FileName(g.id))
  {
    match GetConfig(st, g.id, template)
    case Err(f) => Run(st, g, [], [], Some(f))
    case Ok(l) =>
      var sent := Remind(v, AdminRoleOf(g, l.config), g.members, dmFails);
      if sent.failure.Some? then Run(l.store, g, sent.outbox, [], sent.failure)
      else
        GetConfigIdempotent(st, g.id, template);
        SetThenGet(v, l.store, g, SetWarned(true), template);
        match SetConfigValue(v, l.store, g, SetWarned(true), template)
        case Err(f) => Run(l.store, g, sent.outbox, [], Some(f))
        case Ok(st') =>
          assert st'.cache[CacheKey(v, g)] == l.config.(warned := true) by {
            FieldsDetermineConfig(st'.cache[CacheKey(v, g)], l.config.(warned := true));
          }
          TouchesTransitive(st, l.store, st', {g.id, CacheKey(v, g)}, FileName(g.id));
          Run(st', g, sent.outbox, [], None)
  }

  // ---------------------------------------------------------------- swap

  /** The positions of the members that enter the candidate pool. */
  ghost function CandidatePositions(v: Variant, c: Config, admin: Option<RoleId>, ms: seq<Member>): set<nat> {
    set j: nat | j < |ms| && Candidate(v, c, admin, ms[j])
  }

  lemma IncreasingIsDistinct(s: seq<nat>)
    requires Increasing(s)
    ensures Distinct(s)
  {
  }

  /** The pool the member loop builds has one entry per candidate. */
  lemma PoolSize(v: Variant, c: Config, admin: Option<RoleId>, ms: seq<Member>, dmFails: set<MemberId>)
    requires Sweep(v, c, admin, ms, dmFails).failure.None?
    ensures |Sweep(v, c, admin, ms, dmFails).pool| == |CandidatePositions(v, c, admin, ms)|
  {
    var pool := Sweep(v, c, admin, ms, dmFails).pool;
    IncreasingIsDistinct(pool);
    DistinctCardinality(pool);
    assert Values(pool) == CandidatePositions(v, c, admin, ms);
  }

  /**
   * The two writes that close a swap: `nextSwap` moves to `now` plus
   * `swapTime` units and `warned` is cleared.
   */
  function Reschedule(v: Variant, st: Store, g: Guild, c: Config, now: int, template: Option<Config>): (r: Result<Store>)
    requires GetConfig(st, g.id, template) == Ok(Loaded(c, st))
    ensures r.Ok?
    ensures GetConfig(r.value, g.id, template).Ok?
    ensures ConfigOf(r.value, g, template) == c.(nextSwap := now + c.swapTime * v.IntervalUnit(), warned := false)
    ensures CacheKey(v, g) in r.value.cache && r.value.cache[CacheKey(v, g)] == ConfigOf(r.value, g, template)
    ensures Touches(st, r.value, {g.id, CacheKey(v, g)}, FileName(g.id))
  {
    var u := SetNextSwap(now + c.swapTime * v.IntervalUnit());
    SetThenGet(v, st, g, u, template);
    match SetConfigValue(v, st, g, u, template)
    case Err(f) => Err(f)
    case Ok(st2) =>
      SetThenGet(v, st2, g, SetWarned(false), template);
      var r := SetConfigValue(v, st2, g, SetWarned(false), template);
      assert Apply(Apply(c, u), SetWarned(false)) == c.(nextSwap := now + c.swapTime * v.IntervalUnit(), warned := false);
      TouchesTransitive(st, st2, r.value, {g.id, CacheKey(v, g)}, FileName(g.id));
      r
  }

  /**
   * Grant and reschedule, once the new admins `chosen` (positions in the
   * pool `sw.pool`) are known.
   */
  function Install(v: Variant, c: Config, st: Store, g: Guild, g1: Guild, sw: Swept, chosen: seq<nat>, now: int,
                   dmFails: set<MemberId>, template: Option<Config>): (r: Run)
    requires GetConfig(st, g.id, template) == Ok(Loaded(c, st))
    requires |sw.members| == |g.members| && g1.members == sw.members
    requires forall j :: j in chosen ==> j < |g.members|
    ensures r.guild == g1.(members := r.guild.members) && r.chosen == chosen
    ensures |r.guild.members| == |g1.members|
    ensures forall i :: 0 <= i < |g1.members| ==>
      r.guild.members[i] == g1.members[i] || (i in chosen && r.guild.members[i] == Promote(g1.members[i], c.adminRole))
    ensures r.failure.Some? ==> r.store == st
    ensures Touches(st, r.store, {g.id, CacheKey(v, g)}, FileName(g.id))
    ensures r.failure.Some? ==> r.failure.value == AdminRoleMissing || r.failure.value.DirectMessageFailed?
    ensures r.failure.None? ==>
      && (forall i :: i in chosen ==> r.guild.members[i] == Promote(g1.members[i], c.adminRole))
      && (AdminRoleOf(g, c).Some? || chosen == [])
      && GetConfig(r.store, g.id, template).Ok?
      && ConfigOf(r.store, g, template) == c.(nextSwap := now + c.swapTime * v.IntervalUnit(), warned := false)
      && CacheKey(v, g) in r.store.cache && r.store.cache[CacheKey(v, g)] == ConfigOf(r.store, g, template)
  {
    assert forall j :: 0 <= j < |chosen| ==> chosen[j] in chosen;
    var gr := Grant(v, AdminRoleOf(g, c), sw.members, chosen, c.swapTime, dmFails);
    var g2 := g1.(members := gr.members);
    if gr.failure.Some? then Run(st, g2, sw.outbox + gr.outbox, chosen, gr.failure)
    else match Reschedule(v, st, g, c, now, template)
      case Err(f) => Run(st, g2, sw.outbox + gr.outbox, chosen, Some(f))
      case Ok(st') => Run(st', g2, sw.outbox + gr.outbox, chosen, None)
  }

  /**
   * The part of the swap after the member loop: count, sample, then grant
   * and reschedule. `sw` is the finished member loop and `g1` the community
   * as that loop left it. A count outside the pool raises before any grant.
   */
  function Appoint(v: Variant, c: Config, st: Store, g: Guild, g1: Guild, sw: Swept, now: int, picks: seq<nat>,
                   dmFails: set<MemberId>, template: Option<Config>): (r: Run)
    requires GetConfig(st, g.id, template) == Ok(Loaded(c, st))
    requires |sw.members| == |g.members| && g1.members == sw.members
    requires forall j :: j in sw.pool ==> j < |g.members|
    requires Increasing(sw.pool)
    ensures r.guild == g1.(members := r.guild.members)
    ensures |r.guild.members| == |g1.members|
    ensures forall i :: 0 <= i < |g1.members| ==>
      r.guild.members[i] == g1.members[i] || (i in r.chosen && r.guild.members[i] == Promote(g1.members[i], c.adminRole))
    ensures forall j :: j in r.chosen ==> j in sw.pool
    ensures Distinct(r.chosen)
    ensures r.failure.Some? ==> r.store == st
    ensures Touches(st, r.store, {g.id, CacheKey(v, g)}, FileName(g.id))
    ensures r.failure.None? ==>
      && AdminCount(st.cache, g) == Ok(|r.chosen|)
      && (forall i :: i in r.chosen ==> r.guild.members[i] == Promote(g1.members[i], c.adminRole))
      && (AdminRoleOf(g, c).Some? || r.chosen == [])
      && GetConfig(r.store, g.id, template).Ok?
      && ConfigOf(r.store, g, template) == c.(nextSwap := now + c.swapTime * v.IntervalUnit(), warned := false)
      && CacheKey(v, g) in r.store.cache && r.store.cache[CacheKey(v, g)] == ConfigOf(r.store, g, template)
    ensures (r.failure.Some? && r.failure.value.BadSampleSize?) <==>
      AdminCount(st.cache, g).Ok? && (AdminCount(st.cache, g).value < 0 || AdminCount(st.cache, g).value > |sw.pool|)
    ensures r.failure.Some? && r.failure.value.BadSampleSize? ==> r.chosen == [] && r.guild == g1
  {
    match AdminCount(st.cache, g)
    case Err(f) => Run(st, g1, sw.outbox, [], Some(f))
    case Ok(k) =>
      if k < 0 || k > |sw.pool| then Run(st, g1, sw.outbox, [], Some(BadSampleSize(k, |sw.pool|)))
      else
        var chosen := Draw(sw.pool, k, picks);
        DrawIsSample(sw.pool, k, picks);
        IncreasingIsDistinct(sw.pool);
        SampleOfDistinctIsDistinct(chosen, sw.pool);
        Install(v, c, st, g, g1, sw, chosen, now, dmFails, template)
  }

  /** The swap once the record `c` has been fetched into `st`. */
  function SwapWith(v: Variant, c: Config, st: Store, g: Guild, now: int, picks: seq<nat>,
                    dmFails: set<MemberId>, template: Option<Config>): (r: Run)
    requires GetConfig(st, g.id, template) == Ok(Loaded(c, st))
    ensures r.guild.id == g.id && r.guild.name == g.name
    ensures |r.guild.members| == |g.members|
    ensures r.guild.roles == StripRoles(c, g.roles).roles
    ensures forall i :: 0 <= i < |g.members| && Exempt(c, g.members[i]) ==> r.guild.members[i] == g.members[i]
    ensures r.failure.Some? ==> r.store == st
    ensures Touches(st, r.store, {g.id, CacheKey(v, g)}, FileName(g.id))
    ensures r.failure.None? ==>
      && GetConfig(r.store, g.id, template).Ok?
      && ConfigOf(r.store, g, template) == c.(nextSwap := now + c.swapTime * v.IntervalUnit(), warned := false)
      && CacheKey(v, g) in r.store.cache && r.store.cache[CacheKey(v, g)] == ConfigOf(r.store, g, template)
  {
    var stripped := StripRoles(c, g.roles).roles;
    var admin := AdminRoleOf(g, c);
    var sw := Sweep(v, c, admin, g.members, dmFails);
    var g1 := g.(roles := stripped, members := sw.members);
    if sw.failure.Some? then Run(st, g1, sw.outbox, [], sw.failure)
    else Appoint(v, c, st, g, g1, sw, now, picks, dmFails, template)
  }

  /**
   * `swapAdmins`: reset role permissions, dismiss the current admins,
   * compute the admin count, sample the new admins, grant them the role and
   * reschedule. Every step that raises stops the swap with the effects made
   * so far; the schedule is only written once all grants are done.
   */
  function Swap(v: Variant, st: Store, g: Guild, now: int, picks: seq<nat>,
                dmFails: set<MemberId>, template: Option<Config>): (r: Run)
    ensures r.guild.id == g.id && r.guild.name == g.name
    ensures |r.guild.members| == |g.members| && |r.guild.roles| == |g.roles|
    ensures GetConfig(st, g.id, template).Err? ==> r == Run(st, g, [], [], Some(GetConfig(st, g.id, template).failure))
    ensures GetConfig(st, g.id, template).Ok? ==>
      var c := ConfigOf(st, g, template);
      && (forall i :: 0 <= i < |g.roles| && KeepsPermissions(c, g.roles[i]) ==> r.guild.roles[i] == g.roles[i])
      && (forall i :: 0 <= i < |g.roles| && !KeepsPermissions(c, g.roles[i]) ==>
            r.guild.roles[i].id == g.roles[i].id && r.guild.roles[i].perms == Standard)
      && (forall i :: 0 <= i < |g.members| && Exempt(c, g.members[i]) ==> r.guild.members[i] == g.members[i])
    ensures GetConfig(st, g.id, template).Ok? && r.failure.Some? ==>
      r.store == GetConfig(st, g.id, template).value.store
    ensures GetConfig(st, g.id, template).Ok? && r.failure.None? ==>
      var c := ConfigOf(st, g, template);
      && GetConfig(r.store, g.id, template).Ok?
      && ConfigOf(r.store, g, template) == c.(nextSwap := now + c.swapTime * v.IntervalUnit(), warned := false)
      && CacheKey(v, g) in r.store.cache && r.store.cache[CacheKey(v, g)] == ConfigOf(r.store, g, template)
    ensures Touches(st, r.store, {g.id, CacheKey(v, g)}, FileName(g.id))
  {
    match GetConfig(st, g.id, template)
    case Err(f) => Run(st, g, [], [], Some(f))
    case Ok(l) =>
      GetConfigIdempotent(st, g.id, template);
      var r := SwapWith(v, l.config, l.store, g, now, picks, dmFails, template);
      TouchesTransitive(st, l.store, r.store, {g.id, CacheKey(v, g)}, FileName(g.id));
      r
  }

  /**
   * A swap that completes: the new admins are exactly `adminCount` distinct
   * candidates, every non-exempt member holds the admin role afterwards
   * exactly when newly chosen, and the schedule moves to `now` plus
   * `swapTime` units with `warned` cleared.
   */
  lemma SwapCompletes(v: Variant, st: Store, g: Guild, now: int, picks: seq<nat>,
                      dmFails: set<MemberId>, template: Option<Config>)
    requires GetConfig(st, g.id, template).Ok?
    requires Swap(v, st, g, now, picks, dmFails, template).failure.None?
    ensures var l := GetConfig(st, g.id, template).value;
            var c := l.config;
            var admin := AdminRoleOf(g, c);
            var r := Swap(v, st, g, now, picks, dmFails, template);
            && AdminCount(l.store.cache, g) == Ok(|r.chosen|)
            && Distinct(r.chosen)
            && (forall j :: j in r.chosen ==> j < |g.members| && Candidate(v, c, admin, g.members[j]))
            && (forall i :: 0 <= i < |g.members| && !Exempt(c, g.members[i]) ==>
                  (Holds(admin, r.guild.members[i]) <==> i in r.chosen))
            && GetConfig(r.store, g.id, template).Ok?
            && ConfigOf(r.store, g, template) == c.(nextSwap := now + c.swapTime * v.IntervalUnit(), warned := false)
  {
    var l := GetConfig(st, g.id, template).value;
    var c := l.config;
    var admin := AdminRoleOf(g, c);
    GetConfigIdempotent(st, g.id, template);
    var sw := Sweep(v, c, admin, g.members, dmFails);
    var g1 := g.(roles := StripRoles(c, g.roles).roles, members := sw.members);
    var r := Swap(v, st, g, now, picks, dmFails, template);
    assert r == Appoint(v, c, l.store, g, g1, sw, now, picks, dmFails, template);
    HoldsExactlyChosen(c, admin, g.members, sw.members, r.guild.members, r.chosen);
  }

  /**
   * After a completed member loop and grant loop, a non-exempt member holds
   * the admin role exactly when the grant loop chose them.
   */
  lemma HoldsExactlyChosen(c: Config, admin: Option<RoleId>, ms: seq<Member>, swept: seq<Member>,
                           after: seq<Member>, chosen: seq<nat>)
    requires |swept| == |ms| && |after| == |ms|
    requires admin.Some? ==> admin.value == c.adminRole
    requires admin.Some? || chosen == []
    requires forall i :: 0 <= i < |ms| ==>
      swept[i] == ms[i] || (Dismissed(c, admin, ms[i]) && swept[i] == Demote(ms[i], admin.value))
    requires forall i :: 0 <= i < |ms| && Dismissed(c, admin, ms[i]) ==> swept[i] == Demote(ms[i], admin.value)
    requires forall i :: 0 <= i < |ms| ==> after[i] == swept[i] || (i in chosen && after[i] == Promote(swept[i], c.adminRole))
    requires forall i :: i in chosen ==> i < |ms| && after[i] == Promote(swept[i], c.adminRole)
    ensures forall i :: 0 <= i < |ms| && !Exempt(c, ms[i]) ==> (Holds(admin, after[i]) <==> i in chosen)
  {
    forall i | 0 <= i < |ms| && !Exempt(c, ms[i])
      ensures Holds(admin, after[i]) <==> i in chosen
    {
      if i in chosen {
        assert admin == Some(c.adminRole);
      }
    }
  }

  /**
   * Current version: a member who held the admin role and is not exempt is
   * never among the new admins of the same swap.
   */
  lemma CurrentNeverReselects(st: Store, g: Guild, now: int, picks: seq<nat>,
                              dmFails: set<MemberId>, template: Option<Config>)
    requires GetConfig(st, g.id, template).Ok?
    requires Swap(Current, st, g, now, picks, dmFails, template).failure.None?
    ensures var c := ConfigOf(st, g, template);
            var r := Swap(Current, st, g, now, picks, dmFails, template);
            forall i :: 0 <= i < |g.members| && Dismissed(c, AdminRoleOf(g, c), g.members[i]) ==>
              i !in r.chosen && !Holds(AdminRoleOf(g, c), r.guild.members[i])
  {
    SwapCompletes(Current, st, g, now, picks, dmFails, template);
  }

  /**
   * When the admin count is negative or larger than the candidate pool,
   * `random.sample` raises: nobody is granted the role and the schedule is
   * not written, though roles were reset and the old admins dismissed.
   */
  lemma SwapOverdrawn(v: Variant, st: Store, g: Guild, now: int, picks: seq<nat>,
                      dmFails: set<MemberId>, template: Option<Config>, k: int)
    requires GetConfig(st, g.id, template).Ok?
    requires v.GuardsDirectMessages() ||
             var c := GetConfig(st, g.id, template).value.config;
             forall i :: 0 <= i < |g.members| && Dismissed(c, AdminRoleOf(g, c), g.members[i]) ==> g.members[i].id !in dmFails
    requires var l := GetConfig(st, g.id, template).value;
             var pool := CandidatePositions(v, l.config, AdminRoleOf(g, l.config), g.members);
             AdminCount(l.store.cache, g) == Ok(k) && (k < 0 || k > |pool|)
    ensures var l := GetConfig(st, g.id, template).value;
            var c := l.config;
            var admin := AdminRoleOf(g, c);
            var r := Swap(v, st, g, now, picks, dmFails, template);
            && r.failure == Some(BadSampleSize(k, |CandidatePositions(v, c, admin, g.members)|))
            && r.chosen == []
            && (forall i :: 0 <= i < |g.members| ==>
                  !Holds(admin, r.guild.members[i]) || (Exempt(c, g.members[i]) && r.guild.members[i] == g.members[i]))
            && r.store == l.store
            && ConfigOf(r.store, g, template) == c
  {
    var l := GetConfig(st, g.id, template).value;
    var c := l.config;
    var admin := AdminRoleOf(g, c);
    GetConfigIdempotent(st, g.id, template);
    var sw := Sweep(v, c, admin, g.members, dmFails);
    SweepFailure(v, c, admin, g.members, dmFails);
    PoolSize(v, c, admin, g.members, dmFails);
    var g1 := g.(roles := StripRoles(c, g.roles).roles, members := sw.members);
    var r := Swap(v, st, g, now, picks, dmFails, template);
    assert r == Appoint(v, c, l.store, g, g1, sw, now, picks, dmFails, template);
  }
}

=== FILE: sampling.dfy ===
/**
 * `random.sample(pool, k)` as a function of the random draws it consumes:
 * each draw picks one of the elements not taken yet. The distribution is
 * not modelled; what is modelled is which results are possible.
 */
module Sampling {

  /** `s` is a possible result of drawing `k` positions of `pool` without replacement. */
  ghost predicate IsSample<T>(s: seq<T>, pool: seq<T>, k: nat) {
    |s| == k && multiset(s) <= multiset(pool)
  }

  predicate Distinct<T(==)>(s: seq<T>) {
    forall i, j :: 0 <= i < j < |s| ==> s[i] != s[j]
  }

  /** The set of values a sequence holds. */
  function Values<T>(s: seq<T>): set<T> {
    set x | x in s
  }

  /** A sequence without repeats has as many elements as its set of values. */
  lemma {:induction false} DistinctCardinality<T>(s: seq<T>)
    requires Distinct(s)
    ensures |Values(s)| == |s|
    decreases |s|
  {
    if |s| > 0 {
      var front := s[..|s| - 1];
      var last := s[|s| - 1];
      assert Distinct(front);
      DistinctCardinality(front);
      assert s == front + [last];
      assert Values(s) == Values(front) + {last};
      assert last !in Values(front);
    }
  }

  function RemoveAt<T>(s: seq<T>, j: nat): (r: seq<T>)
    requires j < |s|
    ensures |r| == |s| - 1
  {
    s[..j] + s[j + 1..]
  }

  lemma RemoveAtMultiset<T>(s: seq<T>, j: nat)
    requires j < |s|
    ensures multiset(RemoveAt(s, j)) == multiset(s) - multiset{s[j]}
  {
    assert s == s[..j] + [s[j]] + s[j + 1..];
  }

  /** The position of the first occurrence of `x`. */
  function FirstIndex<T(==)>(s: seq<T>, x: T): (i: nat)
    requires x in s
    ensures i < |s| && s[i] == x && x !in s[..i]
  {
    if s[0] == x then 0
    else
      var i := FirstIndex(s[1..], x);
      assert s[..i + 1] == [s[0]] + s[1..][..i];
      i + 1
  }

  function Head(picks: seq<nat>): nat {
    if |picks| == 0 then 0 else picks[0]
  }

  function Tail(picks: seq<nat>): seq<nat> {
    if |picks| == 0 then [] else picks[1..]
  }

  /** Reduces a raw draw to a position among `m` elements. */
  function Wrap(n: nat, m: nat): (r: nat)
    requires m > 0
    ensures r < m
    ensures n < m ==> r == n
  {
    n % m
  }

  /** Draws `k` elements of `pool`, the i-th draw indexing the elements still left. */
  function Draw<T>(pool: seq<T>, k: nat, picks: seq<nat>): seq<T>
    requires k <= |pool|
    decreases k
  {
    if k == 0 then []
    else
      var j := Wrap(Head(picks), |pool|);
      [pool[j]] + Draw(RemoveAt(pool, j), k - 1, Tail(picks))
  }

  /** Whatever the draws, the result is a sample of size `k`. */
  lemma {:induction false} DrawIsSample<T>(pool: seq<T>, k: nat, picks: seq<nat>)
    requires k <= |pool|
    ensures IsSample(Draw(pool, k, picks), pool, k)
    decreases k
  {
    if k > 0 {
      var j := Wrap(Head(picks), |pool|);
      var rest := RemoveAt(pool, j);
      RemoveAtMultiset(pool, j);
      DrawIsSample(rest, k - 1, Tail(picks));
      var tail := Draw(rest, k - 1, Tail(picks));
      assert multiset([pool[j]] + tail) == multiset{pool[j]} + multiset(tail);
    }
  }

  /** A first draw that names a position directly takes that position. */
  lemma DrawFirst<T>(pool: seq<T>, k: nat, j: nat, picks: seq<nat>)
    requires 0 < k <= |pool| && j < |pool|
    ensures Draw(pool, k, [j] + picks) == [pool[j]] + Draw(RemoveAt(pool, j), k - 1, picks)
  {
    assert Head([j] + picks) == j;
    assert Tail([j] + picks) == picks;
  }

  /** Taking one element out of both sides keeps the sub-multiset relation. */
  lemma RemoveFromBoth<T>(s: seq<T>, pool: seq<T>, j: nat)
    requires |s| > 0 && j < |pool| && pool[j] == s[0]
    requires multiset(s) <= multiset(pool)
    ensures multiset(s[1..]) <= multiset(RemoveAt(pool, j))
  {
    assert s == [s[0]] + s[1..];
    assert multiset(s) == multiset{s[0]} + multiset(s[1..]);
    RemoveAtMultiset(pool, j);
  }

  /** Every possible sample is drawn by some sequence of draws. */
  lemma {:induction false} DrawComplete<T>(pool: seq<T>, s: seq<T>) returns (picks: seq<nat>)
    requires IsSample(s, pool, |s|)
    ensures |s| <= |pool|
    ensures Draw(pool, |s|, picks) == s
    decreases |s|
  {
    if |s| == 0 {
      picks := [];
    } else {
      var x := s[0];
      assert x in pool by {
        assert x in multiset(s);
      }
      var j := FirstIndex(pool, x);
      var rest := RemoveAt(pool, j);
      assert IsSample(s[1..], rest, |s[1..]|) by {
        RemoveFromBoth(s, pool, j);
      }
      var tailPicks := DrawComplete(rest, s[1..]);
      picks := [j] + tailPicks;
      DrawExtends(pool, s, j, tailPicks);
    }
  }

  /** Drawing position `j` first, then a draw of the rest, draws `s`. */
  lemma DrawExtends<T>(pool: seq<T>, s: seq<T>, j: nat, tailPicks: seq<nat>)
    requires 0 < |s| <= |pool| && j < |pool| && pool[j] == s[0]
    requires Draw(RemoveAt(pool, j), |s| - 1, tailPicks) == s[1..]
    ensures Draw(pool, |s|, [j] + tailPicks) == s
  {
    DrawFirst(pool, |s|, j, tailPicks);
    assert s == [s[0]] + s[1..];
  }

  /** In a pool without repeats each element occurs once. */
  lemma {:induction false} DistinctOccursOnce<T>(pool: seq<T>, x: T)
    requires Distinct(pool)
    ensures multiset(pool)[x] <= 1
    decreases |pool|
  {
    if |pool| > 0 {
      var last := pool[|pool| - 1];
      var front := pool[..|pool| - 1];
      assert pool == front + [last];
      assert Distinct(front);
      DistinctOccursOnce(front, x);
      if x == last {
        assert x !in front;
        assert multiset(front)[x] == 0;
      }
    }
  }

  /** A sample of a pool without repeats has no repeats and only pool elements. */
  lemma {:induction false} SampleOfDistinctIsDistinct<T>(s: seq<T>, pool: seq<T>)
    requires Distinct(pool)
    requires multiset(s) <= multiset(pool)
    ensures Distinct(s)
    ensures forall x :: x in s ==> x in pool
  {
    forall i, j | 0 <= i < j < |s|
      ensures s[i] != s[j]
    {
      if s[i] == s[j] {
        var x := s[i];
        var without := s[..i] + s[i + 1..];
        assert s == s[..i] + [x] + s[i + 1..];
        assert without[j - 1] == x;
        assert multiset(s)[x] == multiset(without)[x] + 1;
        assert multiset(without)[x] >= 1;
        DistinctOccursOnce(pool, x);
        assert false;
      }
    }
    forall x | x in s
      ensures x in pool
    {
      assert x in multiset(s);
    }
  }
}

=== FILE: scenarios.dfy ===
/**
 * Worked situations of the rotation, each stated for both versions where
 * they differ.
 */
module Scenarios {
  import opened Outcomes
  import opened Platform
  import opened Settings
  import opened Policy
  import opened ConfigStore
  import opened Rotation
  import opened Sampling

  /**
   * With a floor of 1, a cap of 3 and one admin per 10 members, 25
   * members give 2 admins, 5 give the floor and 40 the cap. Bots and
   * ignored members are counted like everyone else.
   */
  lemma CountExamples(c: Config, g: Guild)
    requires c.minAdmins == 1 && c.maxAdmins == 3 && c.adminRatio == 10
    ensures |g.members| == 25 ==> AdminCount(map[g.id := c], g) == Ok(2)
    ensures |g.members| == 5 ==> AdminCount(map[g.id := c], g) == Ok(1)
    ensures |g.members| == 40 ==> AdminCount(map[g.id := c], g) == Ok(3)
  {
  }

  /**
   * A swap completed at second 1000 with `swapTime` 24 schedules the next
   * one 24 hours later in the current version and 24 days later in the
   * legacy one.
   */
  lemma IntervalExamples(st: Store, g: Guild, c: Config, template: Option<Config>)
    requires g.id in st.cache && st.cache[g.id] == c && c.swapTime == 24
    ensures ConfigOf(Reschedule(Current, st, g, c, 1000, template).value, g, template).nextSwap == 87400
    ensures ConfigOf(Reschedule(Legacy, st, g, c, 1000, template).value, g, template).nextSwap == 2074600
  {
  }

  /** One member, who holds the admin role; exactly one admin is wanted. */
  function LoneAdmin(): Guild {
    Guild("7", "Seven", [Member(0, {5}, false)], [Role(5, {})])
  }

  function LoneConfig(): Config {
    Config("7", true, 5, [], 1, 1, 1, 24, 0, false)
  }

  /**
   * The current version never reappoints the admin it just dismissed, so
   * with nobody else to pick the sample raises and the community is left
   * without an admin.
   */
  lemma CurrentLeavesNoAdmin(picks: seq<nat>)
    ensures var r := Swap(Current, Store(map["7" := LoneConfig()], map[]), LoneAdmin(), 1, picks, {}, None);
            && r.failure == Some(BadSampleSize(1, 0))
            && !Holds(Some(5), r.guild.members[0])
  {
    var st := Store(map["7" := LoneConfig()], map[]);
    var g := LoneAdmin();
    var c := LoneConfig();
    assert HasRoleId(g.roles, 5) by { assert g.roles[0].id == 5; }
    assert CandidatePositions(Current, c, Some(5), g.members) == {} by {
      assert !Candidate(Current, c, Some(5), g.members[0]);
    }
    SwapOverdrawn(Current, st, g, 1, picks, {}, None, 1);
  }

  /** In the same situation the legacy version puts the same member back. */
  lemma LegacyReappoints(picks: seq<nat>)
    ensures var r := Swap(Legacy, Store(map["7" := LoneConfig()], map[]), LoneAdmin(), 1, picks, {}, None);
            && r.failure.None?
            && r.chosen == [0]
            && Holds(Some(5), r.guild.members[0])
  {
    var st := Store(map["7" := LoneConfig()], map[]);
    var g := LoneAdmin();
    var c := LoneConfig();
    assert GetConfig(st, "7", None) == Ok(Loaded(c, st));
    assert AdminRoleOf(g, c) == Some(5) by {
      assert HasRoleId(g.roles, 5) by { assert g.roles[0].id == 5; }
    }
    var sw := LoneSweep();
    var g1 := g.(roles := StripRoles(c, g.roles).roles, members := sw.members);
    assert Swap(Legacy, st, g, 1, picks, {}, None) == Appoint(Legacy, c, st, g, g1, sw, 1, picks, {}, None);
    LoneAppoint(picks, g1);
  }

  /** The legacy member loop dismisses the lone admin and keeps them in the pool. */
  lemma LoneSweep() returns (sw: Swept)
    ensures sw == Sweep(Legacy, LoneConfig(), Some(5), LoneAdmin().members, {})
    ensures sw == Swept([Member(0, {}, false)], [0], [Notice(0, Dismissal)], None)
  {
    var g := LoneAdmin();
    var c := LoneConfig();
    sw := Sweep(Legacy, c, Some(5), g.members, {});
    assert g.members[..0] == [];
    assert Sweep(Legacy, c, Some(5), g.members[..0], {}) == Swept([], [], [], None);
    assert !Exempt(c, g.members[0]) && Holds(Some(5), g.members[0]);
    assert Demote(g.members[0], 5) == Member(0, {}, false);
  }

  /** Counting one admin and drawing from a pool of one re-grants the role to member 0. */
  lemma LoneAppoint(picks: seq<nat>, g1: Guild)
    requires g1.members == [Member(0, {}, false)]
    ensures var st := Store(map["7" := LoneConfig()], map[]);
            var sw := Swept([Member(0, {}, false)], [0], [Notice(0, Dismissal)], None);
            var r := Appoint(Legacy, LoneConfig(), st, LoneAdmin(), g1, sw, 1, picks, {}, None);
            && r.failure.None?
            && r.chosen == [0]
            && Holds(Some(5), r.guild.members[0])
  {
    var st := Store(map["7" := LoneConfig()], map[]);
    var g := LoneAdmin();
    var c := LoneConfig();
    var sw := Swept([Member(0, {}, false)], [0], [Notice(0, Dismissal)], None);
    assert GetConfig(st, "7", None) == Ok(Loaded(c, st));
    assert AdminRoleOf(g, c) == Some(5) by {
      assert HasRoleId(g.roles, 5) by { assert g.roles[0].id == 5; }
    }
    assert AdminCount(st.cache, g) == Ok(1);
    assert Draw(sw.pool, 1, picks) == [0];
    var gr := Grant(Legacy, Some(5), sw.members, [0], 24, {});
    assert [0][..0] == [];
    assert gr.failure.None?;
  }
}

=== FILE: scheduler.dfy ===
/**
 * The update loop: one tick over the configurations that are enabled when
 * the tick starts, in cache order. One exception handler surrounds the
 * whole pass, so the first failure ends the tick and the configurations
 * after it wait for the next one.
 */
module Scheduler {
  import opened Outcomes
  import opened Platform
  import opened Settings
  import opened Policy
  import opened ConfigStore
  import opened Rotation
  import opened Sampling

  /** Seconds before `nextSwap` from which the admins are reminded. */
  const WarnWindow: int := 3600

  predicate WarnDue(c: Config, now: int) {
    c.nextSwap - now <= WarnWindow && !c.warned
  }

  /** The swap fires strictly after `nextSwap`. */
  predicate SwapDue(c: Config, now: int) {
    now > c.nextSwap
  }

  /** The store and the communities the bot can see, by id. */
  datatype World = World(store: Store, guilds: map<string, Guild>)

  /**
   * What the outside supplies to a tick: the clock, the random draws of
   * each community's sample, the members whose direct messages fail and
   * the default template.
   */
  datatype Env = Env(now: int, draws: string -> seq<nat>, dmFails: set<MemberId>, template: Option<Config>)

  datatype Tock = Tock(world: World, outbox: seq<Notice>, failure: Option<Failure>)

  /** Looking a community up by id yields that community. */
  ghost predicate GuildsKeyed(guilds: map<string, Guild>) {
    forall id :: id in guilds ==> guilds[id].id == id
  }

  /** The cache keys a visit of the record for `id` may write. */
  ghost function Scope(v: Variant, w: World, id: string): set<string> {
    if id in w.guilds then {id, CacheKey(v, w.guilds[id])} else {id}
  }

  /**
   * Where one successful visit leaves a record, in the current version: a
   * swap moves the schedule on and clears the warning, otherwise a due
   * warning is recorded, otherwise nothing changes.
   */
  function Expected(c: Config, now: int): Config {
    if SwapDue(c, now) then c.(nextSwap := now + c.swapTime * 3600, warned := false)
    else if WarnDue(c, now) then c.(warned := true)
    else c
  }

  /** Every element of `keys` occurs in `order`, and `keys` lists them in the order of their first occurrence there. */
  ghost predicate InOrder(keys: seq<string>, order: seq<string>) {
    && (forall i :: 0 <= i < |keys| ==> keys[i] in order)
    && (forall i, j :: 0 <= i < j < |keys| ==> FirstIndex(order, keys[i]) < FirstIndex(order, keys[j]))
  }

  /** The keys, in cache order, whose record is enabled. */
  function EnabledKeys(order: seq<string>, cache: map<string, Config>): (keys: seq<string>)
    requires forall i :: 0 <= i < |order| ==> order[i] in cache
    ensures forall k :: k in keys <==> k in order && cache[k].enabled
    ensures forall i :: 0 <= i < |keys| ==> keys[i] in cache
    ensures Distinct(order) ==> Distinct(keys) && InOrder(keys, order)
    decreases |order|
  {
    if |order| == 0 then []
    else
      var rest := EnabledKeys(order[1..], cache);
      EnabledKeysCons(order, cache, rest);
      if cache[order[0]].enabled then [order[0]] + rest else rest
  }

  /** The step of `EnabledKeys` that puts the head of `order` in front of the filtered tail. */
  lemma EnabledKeysCons(order: seq<string>, cache: map<string, Config>, rest: seq<string>)
    requires |order| > 0 && forall i :: 0 <= i < |order| ==> order[i] in cache
    requires forall k :: k in rest <==> k in order[1..] && cache[k].enabled
    requires Distinct(order[1..]) ==> Distinct(rest) && InOrder(rest, order[1..])
    ensures forall k :: k in order <==> k == order[0] || k in order[1..]
    ensures Distinct(order) ==> Distinct(rest) && InOrder(rest, order) && order[0] !in rest
    ensures Distinct(order) ==> Distinct([order[0]] + rest) && InOrder([order[0]] + rest, order)
  {
    assert forall k :: k in order <==> k == order[0] || k in order[1..] by {
      assert order == [order[0]] + order[1..];
    }
    if Distinct(order) {
      assert Distinct(order[1..]) && order[0] !in order[1..];
      InOrderShift(order, rest);
      InOrderPrepend(order, rest);
    }
  }

  /** Keys in order within the tail of `order` are in order within `order`. */
  lemma InOrderShift(order: seq<string>, rest: seq<string>)
    requires |order| > 0 && order[0] !in rest
    requires InOrder(rest, order[1..])
    ensures InOrder(rest, order)
  {
    forall i | 0 <= i < |rest|
      ensures rest[i] in order && FirstIndex(order, rest[i]) == FirstIndex(order[1..], rest[i]) + 1
    {
      FirstIndexTail(order, rest[i]);
    }
  }

  /** The head of `order` goes in front of keys that are in order and do not hold it. */
  lemma InOrderPrepend(order: seq<string>, rest: seq<string>)
    requires |order| > 0 && order[0] !in rest
    requires Distinct(rest) && InOrder(rest, order)
    ensures Distinct([order[0]] + rest) && InOrder([order[0]] + rest, order)
  {
    var keys := [order[0]] + rest;
    forall i | 0 <= i < |rest|
      ensures 0 < FirstIndex(order, rest[i])
    {
    }
    forall i, j | 0 <= i < j < |keys|
      ensures FirstIndex(order, keys[i]) < FirstIndex(order, keys[j]) && keys[i] != keys[j]
    {
      assert keys[j] == rest[j - 1];
      if i > 0 {
        assert keys[i] == rest[i - 1];
      }
    }
  }

  /** Past a different head, an element's first position is one more than in the tail. */
  lemma FirstIndexTail(order: seq<string>, x: string)
    requires |order| > 0 && x in order[1..] && x != order[0]
    ensures FirstIndex(order, x) == FirstIndex(order[1..], x) + 1
  {
  }

  /** The warning half of a visit to the record `c`. */
  function WarnStep(v: Variant, w: World, c: Config, env: Env): (t: Tock)
    ensures t.world.guilds == w.guilds
    ensures GuildsKeyed(w.guilds) ==> Touches(w.store, t.world.store, Scope(v, w, c.id), FileName(c.id))
    ensures !WarnDue(c, env.now) ==> t == Tock(w, [], None)
    ensures WarnDue(c, env.now) && c.id !in w.guilds ==> t == Tock(w, [], Some(UnknownGuild(c.id)))
    ensures GuildsKeyed(w.guilds) && c.id in w.store.cache && t.failure.Some? ==> t.world.store == w.store
    ensures v.Current? && GuildsKeyed(w.guilds) && c.id in w.store.cache && w.store.cache[c.id] == c ==>
      && (t.failure.Some? <==> WarnDue(c, env.now) && c.id !in w.guilds)
      && c.id in t.world.store.cache
      && t.world.store.cache[c.id] == (if WarnDue(c, env.now) && c.id in w.guilds then c.(warned := true) else c)
  {
    if !WarnDue(c, env.now) then Tock(w, [], None)
    else if c.id !in w.guilds then Tock(w, [], Some(UnknownGuild(c.id)))
    else
      var r := Warn(v, w.store, w.guilds[c.id], env.dmFails, env.template);
      Tock(World(r.store, w.guilds), r.outbox, r.failure)
  }

  /** The swap half of a visit to the record `c`, after the warning half. */
  function SwapStep(v: Variant, w: World, c: Config, env: Env): (t: Tock)
    ensures t.world.guilds.Keys == w.guilds.Keys
    ensures forall id :: id in w.guilds && id != c.id ==> t.world.guilds[id] == w.guilds[id]
    ensures !SwapDue(c, env.now) ==> t == Tock(w, [], None)
    ensures SwapDue(c, env.now) && c.id !in w.guilds ==> t == Tock(w, [], Some(UnknownGuild(c.id)))
    ensures GuildsKeyed(w.guilds) ==>
      && GuildsKeyed(t.world.guilds)
      && Touches(w.store, t.world.store, Scope(v, w, c.id), FileName(c.id))
    ensures v.Current? && GuildsKeyed(w.guilds) && c.id in w.store.cache && w.store.cache[c.id].swapTime == c.swapTime ==>
      var before := w.store.cache[c.id];
      && c.id in t.world.store.cache
      && (t.failure.None? && SwapDue(c, env.now) ==>
            t.world.store.cache[c.id] == before.(nextSwap := env.now + c.swapTime * 3600, warned := false))
      && (t.failure.Some? || !SwapDue(c, env.now) ==> t.world.store.cache[c.id] == before)
  {
    if !SwapDue(c, env.now) then Tock(w, [], None)
    else if c.id !in w.guilds then Tock(w, [], Some(UnknownGuild(c.id)))
    else
      var r := Swap(v, w.store, w.guilds[c.id], env.now, env.draws(c.id), env.dmFails, env.template);
      Tock(World(r.store, w.guilds[c.id := r.guild]), r.outbox, r.failure)
  }

  /**
   * One record within a tick: warn when at most `WarnWindow` seconds are
   * left and no warning was recorded, then swap once the time has passed,
   * whether or not a warning went out. Both may happen in the same visit.
   * The record is read when the visit starts.
   */
  function Visit(v: Variant, w: World, key: string, env: Env): (t: Tock)
    ensures t.world.guilds.Keys == w.guilds.Keys
    ensures key !in w.store.cache ==> t == Tock(w, [], None)
    ensures key in w.store.cache ==>
      var id := w.store.cache[key].id;
      forall g :: g in w.guilds && g != id ==> t.world.guilds[g] == w.guilds[g]
    ensures GuildsKeyed(w.guilds) && key in w.store.cache ==>
      && GuildsKeyed(t.world.guilds)
      && Touches(w.store, t.world.store, Scope(v, w, w.store.cache[key].id), FileName(w.store.cache[key].id))
    ensures v.Current? && GuildsKeyed(w.guilds) && key in w.store.cache && w.store.cache[key].id == key ==>
      var c := w.store.cache[key];
      && key in t.world.store.cache
      && (t.failure.None? ==> t.world.store.cache[key] == Expected(c, env.now))
      && (t.failure.Some? ==> t.world.store.cache[key] == c || t.world.store.cache[key] == c.(warned := true))
  {
    if key !in w.store.cache then Tock(w, [], None)
    else
      var c := w.store.cache[key];
      var warned := WarnStep(v, w, c, env);
      if warned.failure.Some? then warned
      else
        var swapped := SwapStep(v, warned.world, c, env);
        assert GuildsKeyed(w.guilds) ==> Touches(w.store, swapped.world.store, Scope(v, w, c.id), FileName(c.id)) by {
          if GuildsKeyed(w.guilds) {
            TouchesTransitive(w.store, warned.world.store, swapped.world.store, Scope(v, w, c.id), FileName(c.id));
          }
        }
        Tock(swapped.world, warned.outbox + swapped.outbox, swapped.failure)
  }

  /** The visit the update loop performs, as a value the pass is built from. */
  function VisitWith(v: Variant, env: Env): (World, string) -> Tock {
    (w, key) => Visit(v, w, key, env)
  }

  /** Visits `keys` in order, stopping at the first failure. */
  function VisitAll(visit: (World, string) -> Tock, w: World, keys: seq<string>): Tock
    decreases |keys|
  {
    if |keys| == 0 then Tock(w, [], None)
    else
      var first := visit(w, keys[0]);
      if first.failure.Some? then first
      else
        var rest := VisitAll(visit, first.world, keys[1..]);
        Tock(rest.world, first.outbox + rest.outbox, rest.failure)
  }

  /** `order` lists every cache key exactly once. */
  ghost predicate Enumerates(order: seq<string>, cache: map<string, Config>) {
    && (forall i :: 0 <= i < |order| ==> order[i] in cache)
    && (forall k :: k in cache ==> k in order)
    && Distinct(order)
  }

  /** One pass of the update loop; `order` is the cache's iteration order. */
  function Tick(v: Variant, w: World, order: seq<string>, env: Env): (t: Tock)
    requires Enumerates(order, w.store.cache)
  {
    VisitAll(VisitWith(v, env), w, EnabledKeys(order, w.store.cache))
  }

  // ------------------------------------------------------------ lemmas

  /**
   * What one visit of the current version does to a record filed under its
   * own id: it writes only that record, its file and its community, and the
   * record ends where `Expected` puts it or, on failure, with at most the
   * warning recorded.
   */
  ghost predicate VisitLaw(w: World, key: string, t: Tock, now: int)
    requires key in w.store.cache
  {
    var c := w.store.cache[key];
    var after := t.world.store.cache;
    && GuildsKeyed(t.world.guilds)
    && t.world.guilds.Keys == w.guilds.Keys
    && (forall g {:trigger Agree(w.guilds, t.world.guilds, g)} :: g != key ==> Agree(w.guilds, t.world.guilds, g))
    && Touches(w.store, t.world.store, {key}, FileName(key))
    && key in after
    && (t.failure.None? ==> after[key] == Expected(c, now))
    && (t.failure.Some? ==> after[key] == c || after[key] == c.(warned := true))
  }

  /** `visit` obeys `VisitLaw` on every world with communities keyed by id. */
  ghost predicate Lawful(visit: (World, string) -> Tock, now: int) {
    forall w: World, key: string {:trigger visit(w, key)} ::
      GuildsKeyed(w.guilds) && key in w.store.cache && w.store.cache[key].id == key ==>
        VisitLaw(w, key, visit(w, key), now)
  }

  /** The current version's visit obeys `VisitLaw`. */
  lemma CurrentVisitLawful(env: Env)
    ensures Lawful(VisitWith(Current, env), env.now)
  {
    var visit := VisitWith(Current, env);
    forall w: World, key: string | GuildsKeyed(w.guilds) && key in w.store.cache && w.store.cache[key].id == key
      ensures VisitLaw(w, key, visit(w, key), env.now)
    {
      var t := Visit(Current, w, key, env);
      assert Scope(Current, w, key) == {key};
      forall g ensures g != key ==> Agree(w.guilds, t.world.guilds, g) { }
    }
  }

  /**
   * Legacy version: when a reminder cannot be delivered the warning is not
   * recorded and the swap check is skipped, so the record and the
   * communities are as before and the next tick warns again.
   */
  lemma LegacyWarnFailureRetries(w: World, key: string, env: Env, holder: nat)
    requires GuildsKeyed(w.guilds)
    requires key in w.store.cache && w.store.cache[key].id == key && key in w.guilds
    requires WarnDue(w.store.cache[key], env.now)
    requires holder < |w.guilds[key].members|
    requires Holds(AdminRoleOf(w.guilds[key], w.store.cache[key]), w.guilds[key].members[holder])
    requires w.guilds[key].members[holder].id in env.dmFails
    ensures var t := Visit(Legacy, w, key, env);
            && t.failure.Some?
            && t.world == w
            && WarnDue(t.world.store.cache[key], env.now)
  {
    var c := w.store.cache[key];
    var warned := WarnStep(Legacy, w, c, env);
    assert warned.failure.Some?;
  }

  /** Current version, keys filed under their own ids and visited in order. */
  ghost predicate SelfKeyed(keys: seq<string>, cache: map<string, Config>) {
    forall i :: 0 <= i < |keys| ==> keys[i] in cache && cache[keys[i]].id == keys[i]
  }

  /** Self-keyed records the first visit does not touch stay self-keyed. */
  lemma SelfKeyedRest(keys: seq<string>, before: map<string, Config>, mid: map<string, Config>)
    requires |keys| > 0 && Distinct(keys) && SelfKeyed(keys, before)
    requires forall k {:trigger Agree(before, mid, k)} :: k != keys[0] ==> Agree(before, mid, k)
    ensures Distinct(keys[1..]) && keys[0] !in keys[1..]
    ensures SelfKeyed(keys[1..], mid)
    ensures forall i :: 0 < i < |keys| ==> keys[i] == keys[1..][i - 1] && mid[keys[i]] == before[keys[i]]
  {
    var rest := keys[1..];
    forall i | 0 < i < |keys|
      ensures keys[i] == rest[i - 1] && keys[i] in mid && mid[keys[i]] == before[keys[i]]
    {
      assert Agree(before, mid, keys[i]);
    }
  }

  /**
   * A lawful pass over distinct self-keyed records leaves every other
   * record and every other community alone.
   */
  lemma {:induction false} PassFrame(visit: (World, string) -> Tock, now: int, w: World, keys: seq<string>)
    requires Lawful(visit, now) && GuildsKeyed(w.guilds)
    requires Distinct(keys) && SelfKeyed(keys, w.store.cache)
    ensures var t := VisitAll(visit, w, keys);
            var before := w.store.cache;
            var after := t.world.store.cache;
            && GuildsKeyed(t.world.guilds)
            && t.world.guilds.Keys == w.guilds.Keys
            && (forall k {:trigger Agree(before, after, k)} :: k !in keys ==> Agree(before, after, k))
            && (forall g {:trigger Agree(w.guilds, t.world.guilds, g)} :: g !in keys ==> Agree(w.guilds, t.world.guilds, g))
            && (forall i :: 0 <= i < |keys| ==> keys[i] in after)
    decreases |keys|
  {
    if |keys| > 0 {
      var k := keys[0];
      var before := w.store.cache;
      var first := visit(w, k);
      assert VisitLaw(w, k, first, now);
      var mid := first.world.store.cache;
      SelfKeyedRest(keys, before, mid);
      if first.failure.None? {
        var rest := keys[1..];
        PassFrame(visit, now, first.world, rest);
        var t := VisitAll(visit, w, keys);
        assert t.world == VisitAll(visit, first.world, rest).world;
        var after := t.world.store.cache;
        forall x {:trigger Agree(before, after, x)} | x !in keys
          ensures Agree(before, after, x)
        {
          assert Agree(before, mid, x) && x !in rest && Agree(mid, after, x);
        }
        forall x {:trigger Agree(w.guilds, t.world.guilds, x)} | x !in keys
          ensures Agree(w.guilds, t.world.guilds, x)
        {
          assert Agree(w.guilds, first.world.guilds, x) && x !in rest;
          assert Agree(first.world.guilds, t.world.guilds, x);
        }
        assert k in after by {
          assert k !in rest && Agree(mid, after, k);
        }
      }
    }
  }

  /** A lawful pass that completes leaves every visited record where `Expected` puts it. */
  lemma {:induction false} PassCompletes(visit: (World, string) -> Tock, now: int, w: World, keys: seq<string>)
    requires Lawful(visit, now) && GuildsKeyed(w.guilds)
    requires Distinct(keys) && SelfKeyed(keys, w.store.cache)
    requires VisitAll(visit, w, keys).failure.None?
    ensures var after := VisitAll(visit, w, keys).world.store.cache;
            forall i :: 0 <= i < |keys| ==> keys[i] in after && after[keys[i]] == Expected(w.store.cache[keys[i]], now)
    decreases |keys|
  {
    if |keys| > 0 {
      var k := keys[0];
      var before := w.store.cache;
      var first := visit(w, k);
      assert VisitLaw(w, k, first, now);
      var mid := first.world.store.cache;
      var rest := keys[1..];
      SelfKeyedRest(keys, before, mid);
      PassFrame(visit, now, first.world, rest);
      PassCompletes(visit, now, first.world, rest);
      var after := VisitAll(visit, first.world, rest).world.store.cache;
      assert VisitAll(visit, w, keys).world.store.cache == after;
      assert after[k] == Expected(before[k], now) by {
        assert k !in rest && Agree(mid, after, k);
      }
      forall i | 0 < i < |keys|
        ensures keys[i] in after && after[keys[i]] == Expected(before[keys[i]], now)
      {
        assert keys[i] == rest[i - 1];
      }
    }
  }

  /**
   * The pass failed at position `i`: the records before it completed their
   * visit, the one at `i` kept its schedule and those after it are as they
   * were.
   */
  ghost predicate FailedAt(keys: seq<string>, i: nat, before: map<string, Config>, after: map<string, Config>, now: int)
    requires i < |keys|
  {
    && (forall j :: 0 <= j < |keys| ==> keys[j] in before && keys[j] in after)
    && (forall j :: 0 <= j < i ==> after[keys[j]] == Expected(before[keys[j]], now))
    && (after[keys[i]] == before[keys[i]] || after[keys[i]] == before[keys[i]].(warned := true))
    && (forall j :: i < j < |keys| ==> after[keys[j]] == before[keys[j]])
  }

  /** The pass stopped at some record of `keys`. */
  ghost predicate Stopped(keys: seq<string>, before: map<string, Config>, after: map<string, Config>, now: int) {
    exists i :: 0 <= i < |keys| && FailedAt(keys, i, before, after, now)
  }

  /** A failure `j` records into the rest of the keys is `j + 1` records in. */
  lemma FailedAtShift(keys: seq<string>, j: nat, before: map<string, Config>, mid: map<string, Config>,
                      after: map<string, Config>, now: int)
    requires 0 < |keys| && j < |keys| - 1
    requires FailedAt(keys[1..], j, mid, after, now)
    requires keys[0] in before && keys[0] in after && after[keys[0]] == Expected(before[keys[0]], now)
    requires forall i :: 0 < i < |keys| ==> keys[i] in before && mid[keys[i]] == before[keys[i]]
    ensures FailedAt(keys, j + 1, before, after, now)
  {
    forall i | 0 < i < |keys| ensures keys[i] == keys[1..][i - 1] { }
  }

  /**
   * A lawful pass that fails does so at one record; those before it
   * completed their visit and those after it were not visited.
   */
  lemma {:induction false} PassStops(visit: (World, string) -> Tock, now: int, w: World, keys: seq<string>)
    requires Lawful(visit, now) && GuildsKeyed(w.guilds)
    requires Distinct(keys) && SelfKeyed(keys, w.store.cache)
    requires VisitAll(visit, w, keys).failure.Some?
    ensures Stopped(keys, w.store.cache, VisitAll(visit, w, keys).world.store.cache, now)
    decreases |keys|
  {
    var k := keys[0];
    var before := w.store.cache;
    var first := visit(w, k);
    assert VisitLaw(w, k, first, now);
    var mid := first.world.store.cache;
    var rest := keys[1..];
    SelfKeyedRest(keys, before, mid);
    if first.failure.None? {
      PassFrame(visit, now, first.world, rest);
      PassStops(visit, now, first.world, rest);
      var after := VisitAll(visit, first.world, rest).world.store.cache;
      assert VisitAll(visit, w, keys).world.store.cache == after;
      var j :| 0 <= j < |rest| && FailedAt(rest, j, mid, after, now);
      assert after[k] == Expected(before[k], now) by {
        assert k !in rest && Agree(mid, after, k);
      }
      FailedAtShift(keys, j, before, mid, after, now);
    } else {
      assert FailedAt(keys, 0, before, mid, now);
    }
  }

  /**
   * Current version, every record cached under its own id: a tick leaves
   * disabled records and their communities alone and keeps the cache keyed
   * by ids, so the next tick starts from the same kind of world. When it
   * completes, every enabled record is where `Expected` puts it; when one
   * visit fails, the enabled records after it in cache order are left for
   * the next tick.
   */
  lemma CurrentTickOutcome(w: World, order: seq<string>, env: Env)
    requires Enumerates(order, w.store.cache)
    requires GuildsKeyed(w.guilds) && KeyedByIds(w.store.cache)
    ensures var t := Tick(Current, w, order, env);
            var before := w.store.cache;
            var after := t.world.store.cache;
            var keys := EnabledKeys(order, before);
            && GuildsKeyed(t.world.guilds)
            && t.world.guilds.Keys == w.guilds.Keys
            && after.Keys == before.Keys
            && KeyedByIds(after)
            && (forall k :: k in before && !before[k].enabled ==> after[k] == before[k])
            && (forall g :: g in w.guilds && (g !in before || !before[g].enabled) ==> t.world.guilds[g] == w.guilds[g])
            && (t.failure.None? ==> forall k :: k in before && before[k].enabled ==> after[k] == Expected(before[k], env.now))
            && (t.failure.Some? ==> Stopped(keys, before, after, env.now))
  {
    var before := w.store.cache;
    var keys := EnabledKeys(order, before);
    var visit := VisitWith(Current, env);
    var t := Tick(Current, w, order, env);
    assert SelfKeyed(keys, before);
    assert t == VisitAll(visit, w, keys);
    var after := t.world.store.cache;
    CurrentVisitLawful(env);
    PassFrame(visit, env.now, w, keys);
    if t.failure.None? {
      PassCompletes(visit, env.now, w, keys);
      forall k | k in before && before[k].enabled
        ensures after[k] == Expected(before[k], env.now)
      {
        var i :| 0 <= i < |keys| && keys[i] == k;
      }
    } else {
      PassStops(visit, env.now, w, keys);
    }
    forall k | k in before && !before[k].enabled
      ensures k in after && after[k] == before[k]
    {
      assert k !in keys && Agree(before, after, k);
    }
    forall g | g in w.guilds && (g !in before || !before[g].enabled)
      ensures t.world.guilds[g] == w.guilds[g]
    {
      assert g !in keys && Agree(w.guilds, t.world.guilds, g);
    }
    forall k | k in after ensures k in before {
      if k !in keys {
        assert Agree(before, after, k);
      } else {
        assert k in order;
      }
    }
    forall k | k in before ensures k in after {
      if k in keys {
        var i :| 0 <= i < |keys| && keys[i] == k;
      } else {
        assert Agree(before, after, k);
      }
    }
    TickKeepsIds(keys, before, after, env.now, t.failure.None?);
  }

  /** A pass, finished or stopped part-way, leaves every record under its own id. */
  lemma TickKeepsIds(keys: seq<string>, before: map<string, Config>, after: map<string, Config>, now: int, completed: bool)
    requires KeyedByIds(before) && after.Keys == before.Keys
    requires forall k :: k in before && !before[k].enabled ==> after[k] == before[k]
    requires forall k :: k in before && before[k].enabled ==> k in keys
    requires completed ==> forall k :: k in before && before[k].enabled ==> after[k] == Expected(before[k], now)
    requires !completed ==> Stopped(keys, before, after, now)
    ensures KeyedByIds(after)
  {
    forall k | k in after ensures after[k].id == k {
      if !completed && before[k].enabled {
        var i :| 0 <= i < |keys| && FailedAt(keys, i, before, after, now);
        var j :| 0 <= j < |keys| && keys[j] == k;
        assert j < i || j == i || i < j;
      }
    }
  }

  /**
   * A tick aborts at its first failure: the first enabled record names a
   * community the bot cannot see, so the second record, although its swap
   * is due, is not visited.
   */
  lemma TickAbortsRest(c: Config, env: Env)
    requires c.enabled && c.warned && SwapDue(c, env.now)
    ensures var w := World(Store(map["1" := c.(id := "1"), "2" := c.(id := "2")], map[]),
                           map["2" := Guild("2", "Second", [], [])]);
            var t := Tick(Current, w, ["1", "2"], env);
            && t.failure == Some(UnknownGuild("1"))
            && t.world == w
  {
    var w := World(Store(map["1" := c.(id := "1"), "2" := c.(id := "2")], map[]),
                   map["2" := Guild("2", "Second", [], [])]);
    assert EnabledKeys(["1", "2"], w.store.cache) == ["1", "2"];
    assert Visit(Current, w, "1", env).failure == Some(UnknownGuild("1"));
  }
}

=== FILE: settings.dfy ===
/**
 * The per-community configuration record and its typed field updates.
 */
module Settings {
  import opened Platform

  /**
   * One community's configuration. `ignoreRoles` is a list, as in the
   * stored record: `ignore` appends and may repeat a role.
   */
  datatype Config = Config(
    id: string,
    enabled: bool,
    adminRole: RoleId,
    ignoreRoles: seq<RoleId>,
    minAdmins: int,
    maxAdmins: int,
    adminRatio: int,
    swapTime: int,
    nextSwap: int,
    warned: bool)

  /** The keys of the stored record. */
  datatype Field =
    | Id | Enabled | AdminRole | IgnoreRoles | MinAdmins | MaxAdmins
    | AdminRatio | SwapTime | NextSwap | Warned

  /** A field's value, tagged by its type. */
  datatype Value =
    | Text(s: string) | Flag(b: bool) | Number(n: int)
    | RoleRef(r: RoleId) | RoleList(rs: seq<RoleId>)

  /** Reads one field of a record by key. */
  function Get(c: Config, f: Field): Value {
    match f
    case Id => Text(c.id)
    case Enabled => Flag(c.enabled)
    case AdminRole => RoleRef(c.adminRole)
    case IgnoreRoles => RoleList(c.ignoreRoles)
    case MinAdmins => Number(c.minAdmins)
    case MaxAdmins => Number(c.maxAdmins)
    case AdminRatio => Number(c.adminRatio)
    case SwapTime => Number(c.swapTime)
    case NextSwap => Number(c.nextSwap)
    case Warned => Flag(c.warned)
  }

  /** A write of one known field with a value of that field's type. */
  datatype Update =
    | SetEnabled(enabled: bool)
    | SetAdminRole(role: RoleId)
    | SetIgnoreRoles(roles: seq<RoleId>)
    | SetMinAdmins(minimum: int)
    | SetMaxAdmins(maximum: int)
    | SetAdminRatio(ratio: int)
    | SetSwapTime(hours: int)
    | SetNextSwap(at: int)
    | SetWarned(warned: bool)
  {
    function Key(): Field {
      match this
      case SetEnabled(_) => Enabled
      case SetAdminRole(_) => AdminRole
      case SetIgnoreRoles(_) => IgnoreRoles
      case SetMinAdmins(_) => MinAdmins
      case SetMaxAdmins(_) => MaxAdmins
      case SetAdminRatio(_) => AdminRatio
      case SetSwapTime(_) => SwapTime
      case SetNextSwap(_) => NextSwap
      case SetWarned(_) => Warned
    }

    function NewValue(): Value {
      match this
      case SetEnabled(b) => Flag(b)
      case SetAdminRole(r) => RoleRef(r)
      case SetIgnoreRoles(rs) => RoleList(rs)
      case SetMinAdmins(n) => Number(n)
      case SetMaxAdmins(n) => Number(n)
      case SetAdminRatio(n) => Number(n)
      case SetSwapTime(n) => Number(n)
      case SetNextSwap(n) => Number(n)
      case SetWarned(b) => Flag(b)
    }
  }

  /**
   * `config[key] = value`: the updated record reads the new value under the
   * update's key and the old value under every other key.
   */
  function Apply(c: Config, u: Update): (c': Config)
    ensures Get(c', u.Key()) == u.NewValue()
    ensures forall f :: f != u.Key() ==> Get(c', f) == Get(c, f)
  {
    match u
    case SetEnabled(b) => c.(enabled := b)
    case SetAdminRole(r) => c.(adminRole := r)
    case SetIgnoreRoles(rs) => c.(ignoreRoles := rs)
    case SetMinAdmins(n) => c.(minAdmins := n)
    case SetMaxAdmins(n) => c.(maxAdmins := n)
    case SetAdminRatio(n) => c.(adminRatio := n)
    case SetSwapTime(n) => c.(swapTime := n)
    case SetNextSwap(n) => c.(nextSwap := n)
    case SetWarned(b) => c.(warned := b)
  }

  /** Two records that agree on every key are the same record. */
  lemma FieldsDetermineConfig(a: Config, b: Config)
    requires forall f :: Get(a, f) == Get(b, f)
    ensures a == b
  {
    assert Get(a, Id) == Get(b, Id);
    assert Get(a, Enabled) == Get(b, Enabled);
    assert Get(a, AdminRole) == Get(b, AdminRole);
    assert Get(a, IgnoreRoles) == Get(b, IgnoreRoles);
    assert Get(a, MinAdmins) == Get(b, MinAdmins);
    assert Get(a, MaxAdmins) == Get(b, MaxAdmins);
    assert Get(a, AdminRatio) == Get(b, AdminRatio);
    assert Get(a, SwapTime) == Get(b, SwapTime);
    assert Get(a, NextSwap) == Get(b, NextSwap);
    assert Get(a, Warned) == Get(b, Warned);
  }

  /** Writing the value a record already holds leaves it unchanged. */
  lemma ApplyCurrentValueIsIdentity(c: Config, u: Update)
    requires Get(c, u.Key()) == u.NewValue()
    ensures Apply(c, u) == c
  {
    FieldsDetermineConfig(Apply(c, u), c);
  }

  /** Two updates of different keys commute. */
  lemma UpdatesOfDistinctKeysCommute(c: Config, u: Update, w: Update)
    requires u.Key() != w.Key()
    ensures Apply(Apply(c, u), w) == Apply(Apply(c, w), u)
  {
    forall f ensures Get(Apply(Apply(c, u), w), f) == Get(Apply(Apply(c, w), u), f) {
      CommutesAt(c, u, w, f);
    }
    FieldsDetermineConfig(Apply(Apply(c, u), w), Apply(Apply(c, w), u));
  }

  /** Updates of different keys, applied in either order, agree on the field `f`. */
  lemma CommutesAt(c: Config, u: Update, w: Update, f: Field)
    requires u.Key() != w.Key()
    ensures Get(Apply(Apply(c, u), w), f) == Get(Apply(Apply(c, w), u), f)
  {
    var cu, cw := Apply(c, u), Apply(c, w);
    if f == u.Key() {
      assert Get(Apply(cu, w), f) == Get(cu, f) == u.NewValue();
    } else if f == w.Key() {
      assert Get(Apply(cw, u), f) == Get(cw, f) == w.NewValue();
    } else {
      assert Get(Apply(cu, w), f) == Get(cu, f) == Get(c, f) == Get(cw, f);
    }
  }

  /** A later write of the same key overrides an earlier one. */
  lemma LaterUpdateWins(c: Config, u: Update, w: Update)
    requires u.Key() == w.Key()
    ensures Apply(Apply(c, u), w) == Apply(c, w)
  {
    var a, b := Apply(Apply(c, u), w), Apply(c, w);
    forall f ensures Get(a, f) == Get(b, f) {
    }
    FieldsDetermineConfig(a, b);
  }
}

=== FILE: store.dfy ===
/**
 * The configuration store: an in-memory map from key to record, backed by
 * one record file per community. Files are modelled as a map from file name
 * to its parsed content; a file that does not parse is `Malformed`.
 */
module ConfigStore {
  import opened Outcomes
  import opened Platform
  import opened Settings
  import opened Policy

  datatype Record = Parsed(config: Config) | Malformed

  datatype Store = Store(cache: map<string, Config>, files: map<string, Record>)

  /** A record handed out by `GetConfig`, with the store it leaves behind. */
  datatype Loaded = Loaded(config: Config, store: Store)

  /** The outcome of a reload: the store reached and the failure that stopped it, if any. */
  datatype Reloaded = Reloaded(store: Store, failure: Option<Failure>)

  /** The record file of community `id`. */
  function FileName(id: string): string {
    id + ".json"
  }

  lemma FileNameInjective(a: string, b: string)
    requires FileName(a) == FileName(b)
    ensures a == b
  {
    assert a == FileName(a)[..|a|];
    assert b == FileName(b)[..|b|];
  }

  /** The loader only reads names whose last five characters are ".json". */
  predicate IsRecordName(name: string) {
    |name| >= 5 && name[|name| - 5..] == ".json"
  }

  /** Every cache key is the id inside its record. */
  ghost predicate KeyedByIds(cache: map<string, Config>) {
    forall k :: k in cache ==> cache[k].id == k
  }

  /** Every record file is named after the id inside it. */
  ghost predicate FilesNamedByIds(files: map<string, Record>) {
    forall n :: n in files && files[n].Parsed? ==> n == FileName(files[n].config.id)
  }

  /**
   * Every cache key is the id inside its record, and every record file is
   * named after the id inside it.
   */
  ghost predicate Coherent(st: Store) {
    KeyedByIds(st.cache) && FilesNamedByIds(st.files)
  }

  /** `m` and `m'` hold the same entry (or none) under `k`. */
  ghost predicate Agree<K, V>(m: map<K, V>, m': map<K, V>, k: K) {
    (k in m <==> k in m') && (k in m ==> m[k] == m'[k])
  }

  /**
   * `st'` differs from `st` at most in the cache entries `keys` and in the
   * file `file`. A caller asks about one key by mentioning `Agree` for it.
   */
  ghost predicate Touches(st: Store, st': Store, keys: set<string>, file: string) {
    && (forall k {:trigger Agree(st.cache, st'.cache, k)} :: k !in keys ==> Agree(st.cache, st'.cache, k))
    && (forall n {:trigger Agree(st.files, st'.files, n)} :: n != file ==> Agree(st.files, st'.files, n))
  }

  lemma TouchesTransitive(a: Store, b: Store, c: Store, keys: set<string>, file: string)
    requires Touches(a, b, keys, file) && Touches(b, c, keys, file)
    ensures Touches(a, c, keys, file)
  {
    forall k | k !in keys
      ensures Agree(a.cache, c.cache, k)
    {
      assert Agree(a.cache, b.cache, k) && Agree(b.cache, c.cache, k);
    }
    forall n | n != file
      ensures Agree(a.files, c.files, n)
    {
      assert Agree(a.files, b.files, n) && Agree(b.files, c.files, n);
    }
  }

  /**
   * Creates the record of a community seen for the first time: the default
   * template with `id` injected, cached and written to its file. It is only
   * reached when that file does not exist yet.
   */
  function InitConfig(st: Store, id: string, template: Option<Config>): (r: Result<Loaded>)
    requires FileName(id) !in st.files
    ensures r.Ok? <==> template.Some?
    ensures r.Ok? ==> r.value.config.id == id
    ensures r.Ok? ==> forall f :: f != Id ==> Get(r.value.config, f) == Get(template.value, f)
    ensures r.Ok? ==> r.value.store.cache == st.cache[id := r.value.config]
    ensures r.Ok? ==> r.value.store.files == st.files[FileName(id) := Parsed(r.value.config)]
  {
    match template
    case None => Err(MissingTemplate)
    case Some(t) =>
      var c := t.(id := id);
      Ok(Loaded(c, Store(st.cache[id := c], st.files[FileName(id) := Parsed(c)])))
  }

  /**
   * Looks the record of community `id` up in the cache, then in its file,
   * then creates it from the template. A record read from its file is not
   * put into the cache.
   */
  function GetConfig(st: Store, id: string, template: Option<Config>): (r: Result<Loaded>)
    ensures id in st.cache ==> r == Ok(Loaded(st.cache[id], st))
    ensures id !in st.cache && FileName(id) in st.files ==>
      match st.files[FileName(id)]
      case Parsed(c) => r == Ok(Loaded(c, st))
      case Malformed => r == Err(MalformedRecord(FileName(id)))
    ensures id !in st.cache && FileName(id) !in st.files ==> r == InitConfig(st, id, template)
    ensures r.Err? ==> r.failure == MalformedRecord(FileName(id)) || r.failure == MissingTemplate
    ensures r.Ok? ==> id in r.value.store.cache || FileName(id) in r.value.store.files
    ensures r.Ok? ==> r.value.store.cache.Keys <= st.cache.Keys + {id}
    ensures r.Ok? ==> r.value.store.files.Keys <= st.files.Keys + {FileName(id)}
    ensures r.Ok? ==> Touches(st, r.value.store, {id}, FileName(id))
  {
    if id in st.cache then Ok(Loaded(st.cache[id], st))
    else if FileName(id) in st.files then
      match st.files[FileName(id)]
      case Parsed(c) => Ok(Loaded(c, st))
      case Malformed => Err(MalformedRecord(FileName(id)))
    else InitConfig(st, id, template)
  }

  /** Asking twice gives the same record and leaves the store as the first call left it. */
  lemma GetConfigIdempotent(st: Store, id: string, template: Option<Config>)
    requires GetConfig(st, id, template).Ok?
    ensures var l := GetConfig(st, id, template).value;
            GetConfig(l.store, id, template) == Ok(l)
  {
  }

  /** The cache key `setConfigValue` writes to. */
  function CacheKey(v: Variant, g: Guild): string {
    if v.Current? then g.id else g.name
  }

  /**
   * `setConfigValue`: fetch the record, change one key, store it in the
   * cache and rewrite its file. The current version caches it under the
   * community's id; the legacy one under the community's name, and the edit
   * also shows under the id when the record came from the cache there,
   * since the same object is shared.
   */
  function SetConfigValue(v: Variant, st: Store, g: Guild, u: Update, template: Option<Config>): (r: Result<Store>)
    ensures r.Err? <==> GetConfig(st, g.id, template).Err?
    ensures r.Ok? ==> CacheKey(v, g) in r.value.cache && FileName(g.id) in r.value.files
    ensures r.Ok? ==>
      var prior := GetConfig(st, g.id, template).value.config;
      var stored := r.value.cache[CacheKey(v, g)];
      && stored == Apply(prior, u)
      && Get(stored, u.Key()) == u.NewValue()
      && (forall f :: f != u.Key() ==> Get(stored, f) == Get(prior, f))
      && r.value.files[FileName(g.id)] == Parsed(stored)
    ensures r.Ok? ==> Touches(st, r.value, {g.id, CacheKey(v, g)}, FileName(g.id))
  {
    match GetConfig(st, g.id, template)
    case Err(f) => Err(f)
    case Ok(l) =>
      var c := Apply(l.config, u);
      var aliased := if v.Legacy? && g.id in l.store.cache then l.store.cache[g.id := c] else l.store.cache;
      Ok(Store(aliased[CacheKey(v, g) := c], l.store.files[FileName(g.id) := Parsed(c)]))
  }

  /**
   * A record written by `SetConfigValue` is what `GetConfig` reads back, in
   * both versions: from the cache when the id is cached there, otherwise from
   * the file just written.
   */
  lemma SetThenGet(v: Variant, st: Store, g: Guild, u: Update, template: Option<Config>)
    requires GetConfig(st, g.id, template).Ok?
    ensures var r := SetConfigValue(v, st, g, u, template);
            var prior := GetConfig(st, g.id, template).value.config;
            r.Ok? && GetConfig(r.value, g.id, template) == Ok(Loaded(Apply(prior, u), r.value))
  {
  }

  /** The current version keeps cache keys equal to the ids of their records. */
  lemma {:induction false} CurrentSetKeepsKeying(st: Store, g: Guild, u: Update, template: Option<Config>)
    requires Coherent(st)
    requires SetConfigValue(Current, st, g, u, template).Ok?
    ensures Coherent(SetConfigValue(Current, st, g, u, template).value)
  {
    var l := GetConfig(st, g.id, template).value;
    GetConfigKeepsKeying(st, g.id, template);
    var c := Apply(l.config, u);
    assert Get(c, Id) == Get(l.config, Id);
  }

  /** A record handed out for `id` carries `id`, and the store stays coherent. */
  lemma GetConfigKeepsKeying(st: Store, id: string, template: Option<Config>)
    requires Coherent(st)
    requires GetConfig(st, id, template).Ok?
    ensures GetConfig(st, id, template).value.config.id == id
    ensures Coherent(GetConfig(st, id, template).value.store)
  {
    if id !in st.cache && FileName(id) in st.files {
      var c := st.files[FileName(id)].config;
      FileNameInjective(id, c.id);
    }
  }

  /**
   * The legacy version breaks the keying: a first edit on a community named
   * "Guild" with id "1" leaves a cache entry "Guild" whose record says "1".
   */
  lemma LegacySetBreaksKeying(t: Config)
    ensures var g := Guild("1", "Guild", [], []);
            var r := SetConfigValue(Legacy, Store(map[], map[]), g, SetEnabled(true), Some(t));
            && Coherent(Store(map[], map[]))
            && r.Ok?
            && "Guild" in r.value.cache && r.value.cache["Guild"].id == "1"
            && !Coherent(r.value)
  {
    var g := Guild("1", "Guild", [], []);
    var r := SetConfigValue(Legacy, Store(map[], map[]), g, SetEnabled(true), Some(t));
    assert r.value.cache["Guild"].id == "1";
  }

  /**
   * `_loadConfigs` over the directory listing `names`, in listing order:
   * names without the ".json" suffix are skipped, every other record is
   * cached under the id inside it, and the first malformed record stops the
   * load with what was cached so far.
   */
  function LoadInto(cache: map<string, Config>, files: map<string, Record>, names: seq<string>): (r: (map<string, Config>, Option<Failure>))
    requires forall i :: 0 <= i < |names| ==> names[i] in files
    ensures cache.Keys <= r.0.Keys
    ensures r.1.None? <==> forall i :: 0 <= i < |names| && IsRecordName(names[i]) ==> files[names[i]].Parsed?
    decreases |names|
  {
    if |names| == 0 then (cache, None)
    else if !IsRecordName(names[0]) then LoadInto(cache, files, names[1..])
    else match files[names[0]]
      case Malformed => (cache, Some(MalformedRecord(names[0])))
      case Parsed(c) => LoadInto(cache[c.id := c], files, names[1..])
  }

  /** The listing names every file exactly once. */
  ghost predicate Lists(names: seq<string>, files: map<string, Record>) {
    && (forall i :: 0 <= i < |names| ==> names[i] in files)
    && (forall n :: n in files ==> n in names)
    && (forall i, j :: 0 <= i < j < |names| ==> names[i] != names[j])
  }

  /**
   * `_loadConfigs` (and the `reloadconf` command). The current version
   * starts from an empty cache, the legacy one loads over the existing one.
   * A missing directory gives the same result as an empty listing.
   */
  function LoadConfigs(v: Variant, st: Store, names: seq<string>): (r: Reloaded)
    requires Lists(names, st.files)
    ensures r.store.files == st.files
    ensures v.Legacy? ==> st.cache.Keys <= r.store.cache.Keys
    ensures r.failure.None? <==> forall n :: n in st.files && IsRecordName(n) ==> st.files[n].Parsed?
  {
    var start := if v.ClearsCacheOnLoad() then map[] else st.cache;
    var loaded := LoadInto(start, st.files, names);
    Reloaded(Store(loaded.0, st.files), loaded.1)
  }

  /** Every entry the loader adds is a record read from a ".json" file, cached under its own id. */
  lemma {:induction false} LoadedEntriesComeFromFiles(cache: map<string, Config>, files: map<string, Record>, names: seq<string>, k: string)
    requires forall i :: 0 <= i < |names| ==> names[i] in files
    requires k in LoadInto(cache, files, names).0
    ensures var c := LoadInto(cache, files, names).0[k];
            (k in cache && c == cache[k]) ||
            (c.id == k && exists i :: 0 <= i < |names| && IsRecordName(names[i]) && files[names[i]] == Parsed(c))
    decreases |names|
  {
    if |names| == 0 {
    } else if !IsRecordName(names[0]) {
      LoadedEntriesComeFromFiles(cache, files, names[1..], k);
      var c := LoadInto(cache, files, names).0[k];
      if !(k in cache && c == cache[k]) {
        var i :| 0 <= i < |names[1..]| && IsRecordName(names[1..][i]) && files[names[1..][i]] == Parsed(c);
        assert names[i + 1] == names[1..][i];
      }
    } else if files[names[0]].Parsed? {
      var c0 := files[names[0]].config;
      LoadedEntriesComeFromFiles(cache[c0.id := c0], files, names[1..], k);
      var c := LoadInto(cache, files, names).0[k];
      if !(k in cache && c == cache[k]) {
        if k in cache[c0.id := c0] && c == cache[c0.id := c0][k] {
          assert k == c0.id;
          assert files[names[0]] == Parsed(c);
        } else {
          var i :| 0 <= i < |names[1..]| && IsRecordName(names[1..][i]) && files[names[1..][i]] == Parsed(c);
          assert names[i + 1] == names[1..][i];
        }
      }
    }
  }

  /** A load that finishes caches every ".json" record under its id. */
  lemma {:induction false} LoadCachesEveryRecord(cache: map<string, Config>, files: map<string, Record>, names: seq<string>, i: nat)
    requires forall j :: 0 <= j < |names| ==> names[j] in files
    requires LoadInto(cache, files, names).1.None?
    requires i < |names| && IsRecordName(names[i])
    ensures files[names[i]].Parsed? && files[names[i]].config.id in LoadInto(cache, files, names).0
    decreases |names|
  {
    if i == 0 {
      var c0 := files[names[0]].config;
      LoadKeepsKeys(cache[c0.id := c0], files, names[1..]);
    } else if !IsRecordName(names[0]) {
      assert names[1..][i - 1] == names[i];
      LoadCachesEveryRecord(cache, files, names[1..], i - 1);
    } else {
      var c0 := files[names[0]].config;
      assert names[1..][i - 1] == names[i];
      LoadCachesEveryRecord(cache[c0.id := c0], files, names[1..], i - 1);
    }
  }

  lemma LoadKeepsKeys(cache: map<string, Config>, files: map<string, Record>, names: seq<string>)
    requires forall i :: 0 <= i < |names| ==> names[i] in files
    ensures cache.Keys <= LoadInto(cache, files, names).0.Keys
  {
  }

  /**
   * The current reload throws the old cache away: every entry afterwards is
   * a listed ".json" record, cached under its own id, whatever was cached
   * before.
   */
  lemma CurrentLoadDiscardsCache(st: Store, names: seq<string>)
    requires Lists(names, st.files)
    ensures var cache := LoadConfigs(Current, st, names).store.cache;
            forall k :: k in cache ==>
              && cache[k].id == k
              && exists i :: 0 <= i < |names| && IsRecordName(names[i]) && st.files[names[i]] == Parsed(cache[k])
  {
    var cache := LoadConfigs(Current, st, names).store.cache;
    forall k | k in cache
      ensures cache[k].id == k
      ensures exists i :: 0 <= i < |names| && IsRecordName(names[i]) && st.files[names[i]] == Parsed(cache[k])
    {
      LoadedEntriesComeFromFiles(map[], st.files, names, k);
    }
  }

  /**
   * A current-version reload of a complete listing leaves a coherent store
   * when every file is named after its id, whatever the old cache held.
   */
  lemma CurrentLoadKeepsKeying(st: Store, names: seq<string>)
    requires Lists(names, st.files)
    requires FilesNamedByIds(st.files)
    ensures Coherent(LoadConfigs(Current, st, names).store)
  {
    var r := LoadConfigs(Current, st, names);
    forall k | k in r.store.cache
      ensures r.store.cache[k].id == k
    {
      LoadedEntriesComeFromFiles(map[], st.files, names, k);
    }
  }
}
